=== FILE: README.md ===
# Trivia quiz: a Dafny model of the quiz lifecycle

This project models the logic of a small trivia quiz web application. The
server hands a logged-in user a quiz and later scores it. The quiz page is
meant to run a one-minute timer and submit the answers. As written it keeps
the wrong part of the server's reply, so it never starts the timer and never
sends a scorable request (see "## Left out" and "## Findings"). A profile
page ranks the player.

The model covers these parts:

- **Question selection** (`controllers/quizController.js`). Questions come
  from the Open Trivia Database provider. When the provider call throws, they
  come from a local bank instead: a Fisher–Yates shuffle of the bank's
  indexes, then a slice.
- **Trivia formatting** (`services/triviaApi.js`). This covers the request
  URL, the `response_code` check, one-pass HTML-entity decoding through a
  fixed twelve-entry table, the copying answer shuffle, and the A–D label of
  the correct answer.
- **The quiz store** (`controllers/quizController.js`). Quizzes live under
  keys `<userId>_<epoch millis>`. Every insertion runs a one-hour expiry
  sweep that reads each key's timestamp back with `parseInt`.
- **The client payload** (`controllers/quizController.js`). The questions
  are sent to the browser without their answers.
- **Submission** (`controllers/quizController.js`). Submitting looks the quiz
  up, scores every answer, deletes the quiz, then persists a game record. The
  record has the shape of the `GameSession` document.
- **The quiz page** (`public/js/quiz.js`). This covers the remaining seconds,
  the `MM:SS` label, the auto-submit trigger, the `answers` array, and what
  the submit button and the page do with each kind of reply, for a page that
  keeps the reply's question list.
- **The profile page** (`public/js/profile.js`). This covers the rank ladder,
  the performance classes, and the game count, total score and best score.
- **Navigation** (`public/js/common.js`). This covers path normalisation and
  the rule that marks the current page's link active.

Everything is immutable data and pure functions, with these exceptions:

- The shuffle loop and the sweep loop are methods, proved equal to their
  functional definitions.
- Server state (the quiz store plus an append-only log of persisted games) is
  threaded through `CreateQuiz` and `SubmitQuiz`. Each request is one atomic
  step, as in Node's single-threaded event loop.

The outside world becomes parameters:

- `Math.random` is an oracle `seq<nat>`. Iteration `i` of a shuffle swaps
  with `choices[i]` when that value lies in `[0, i]`, and with 0 otherwise.
  Every index the source can draw is therefore reachable.
- The provider request is a function from the URL to an outcome.
- The two `Date.now()` reads of quiz creation are two parameters.
- Whether `user.save()` and `GameSession.create` succeed are booleans.
- The local bank is a parameter, because its file is not part of this model.

## Model

| member | source | states |
|---|---|---|
| `Shuffle.Pick` | controllers/quizController.js:20 | the index drawn at iteration `i` lies in `[0, i]` |
| `Shuffle.Swap` | controllers/quizController.js:21 | the destructuring swap exchanges positions `i` and `j`, keeps every other position and the multiset |
| `Shuffle.Shuffled` | controllers/quizController.js:18-23 | the in-place shuffle keeps the length and the multiset of elements |
| `Shuffle.Stage` | controllers/quizController.js:19-22 | after every completed iteration of the loop the array keeps its length and its multiset of elements |
| `Shuffle.ShuffleArray` | services/triviaApi.js:90-97 | the loop over a copy computes exactly the functional shuffle and returns a permutation of its argument; the argument is a value and stays unmodified |
| `Shuffle.PermutationOfRange` | controllers/quizController.js:29-31 | a permutation of the keys `0..n-1` has length `n` and lists every index below `n` exactly once |
| `QuizController.SliceEnd` | controllers/quizController.js:31 | `slice(0, count)` keeps `min(count, n)` items for a non-negative count and `max(n + count, 0)` for a negative one |
| `QuizController.GetLocalQuestions` | controllers/quizController.js:28-44 | the fallback returns `min(count, bankSize)` questions for `count >= 0`, with distinct ids in `[0, bankSize)`, each copying text, options and answer from the bank entry at its id |
| `QuizController.SelectQuestions` | controllers/quizController.js:53-66 | the provider's questions when it succeeds; `getLocalQuestions(amount)` on any thrown failure, with `amount` defaulting to 10 |
| `QuizController.FallbackSelection` | controllers/quizController.js:58-66 | when the provider fails, the quiz holds `min(amount, bankSize)` distinct, faithfully copied bank questions |
| `QuizController.ClientPayload` | controllers/quizController.js:84-95 | one entry per stored question, in order; entry `i` has id `i`, the text, the four options, category and difficulty, and no answer |
| `QuizController.PayloadHidesAnswers` | controllers/quizController.js:83-95 | changing every stored answer leaves the payload identical |
| `QuizController.CreateQuiz` | controllers/quizController.js:51-97 | a missing user changes nothing; otherwise the quiz is stored under `(userId, now)` and the store swept before `user.save()`, so a failed save keeps them; the reply carries the key and the payload |
| `QuizController.ScoreAnswers` | controllers/quizController.js:122-135 | scoring succeeds exactly when every answer id names a stored question; then there is one detail per answer in submission order, and the score is the number of strictly matching answers |
| `QuizController.NullNeverCorrect` | controllers/quizController.js:125 | a `null` choice never equals a stored answer |
| `QuizController.CountCorrectAppend` | controllers/quizController.js:122-126 | the count of correct answers splits over concatenation |
| `QuizController.CountCorrectPermutation` | controllers/quizController.js:122-126 | reordering the submitted answers does not change the score |
| `QuizController.Lookup` | controllers/quizController.js:113 | only a string quiz id that is a stored key finds a quiz |
| `QuizController.SubmitQuiz` | controllers/quizController.js:107-153 | unknown id: store and log unchanged with "Quiz not found or expired"; a found quiz fails with "Invalid answer ID" iff some answer id is out of range, and then nothing changes; otherwise the quiz is deleted before persisting, the reply is a score iff persisting succeeds and `PersistFailed` otherwise, and the log grows by exactly one record (user, score, total = number of answers, details) iff it is a score; the reply's details are the scoring's details, one per answer in submission order; `0 <= score <= total` |
| `QuizController.InvalidIdKeepsQuiz` | controllers/quizController.js:124-125 | an answer naming no question throws before the delete: the quiz stays and nothing is persisted |
| `QuizController.ConsumedOnce` | controllers/quizController.js:138-146 | after a submission that got past scoring, even one whose persist failed, resubmitting the same id finds nothing and changes nothing |
| `QuizController.CreatedQuizIsFound` | controllers/quizController.js:69-79 | a quiz just created under a non-decreasing clock, with the two reads at most an hour apart, survives its own sweep and is found by its returned id |
| `QuizController.RepeatedAnswerCountsTwice` | controllers/quizController.js:122-146 | answer ids are not deduplicated: one correct answer sent twice for a one-question quiz scores 2 of 2 |
| `QuizController.OneOfTwoCorrect` | controllers/quizController.js:122-146 | answers A and C, submitted A and B: score 1 of 2, only the first marked correct |
| `QuizStore.KeyTimestampOfMakeKey` | controllers/quizController.js:69-75 | `parseInt(key.split('_')[1])` of a key built from a user id without '_' is the creation time |
| `QuizStore.MakeKeyInjective` | controllers/quizController.js:69 | two keys coincide iff they share user and millisecond, so a same-user, same-millisecond quiz overwrites the earlier one |
| `QuizStore.Swept` | controllers/quizController.js:72-79 | the sweep only removes entries and never changes a kept entry |
| `QuizStore.Sweep` | controllers/quizController.js:74-79 | the loop that deletes while iterating leaves exactly the keys whose timestamp is not `< now - 3600000`; keys with no numeric timestamp are kept |
| `QuizStore.KeyTimestampOfUnderscoredId` | controllers/quizController.js:69-75 | for a user id `u_<n>` the sweep reads `n`, not the creation time, as the key's timestamp |
| `QuizStore.SweptReadsUserIdPiece` | controllers/quizController.js:73-78 | a quiz under a user id `u_<n>` survives a sweep iff it was stored and `n >= now - 3600000`, whenever it was created |
| `QuizStore.SweptKeepsRecent` | controllers/quizController.js:73-76 | a quiz made at `t` survives a sweep at `now` iff it was stored and `t >= now - 3600000` |
| `QuizStore.Register` | controllers/quizController.js:69-79 | after insert-and-sweep the new key is kept iff its own timestamp has not expired, and then holds the new questions; every other key stays iff it was stored and has not expired, unchanged |
| `QuizStore.RegisterKeepsNewIff` | controllers/quizController.js:69-79 | for a user id without '_', the new key survives its own sweep iff the sweep's clock read is at most an hour after the key's |
| `QuizStore.NewQuizSurvives` | controllers/quizController.js:69-79 | under a non-decreasing clock with the two reads at most an hour apart, the quiz just created survives the sweep |
| `TriviaApi.BuildUrl` | services/triviaApi.js:14-22 | the URL starts with the provider's endpoint |
| `TriviaApi.UrlIsJoinedFields` | services/triviaApi.js:14-22 | the URL is the endpoint followed by `amount`, then `category` only when truthy, then `difficulty` only when truthy, joined by '&' |
| `TriviaApi.UrlFields` | services/triviaApi.js:14-22 | splitting the query at '&' gives back those fields when the category and difficulty texts contain no '&' |
| `TriviaApi.FieldsReadBack` | services/triviaApi.js:14-22 | each field reads back as its intended name and value |
| `TriviaApi.UrlRoundTrip` | services/triviaApi.js:14-22 | splitting the query string at every '&' and each field at its first '=' gives back amount, the truthy category and the truthy difficulty, in order, when those texts hold no '&' |
| `TriviaApi.CategoryInjectsParam` | services/triviaApi.js:14-22 | the category is inserted unencoded, so a category text `c&n=v` adds the parameter `n=v` to the request |
| `TriviaApi.FetchTriviaQuestions` | services/triviaApi.js:11-63 | succeeds iff the request succeeds with `response_code` 0; a non-zero code fails with that code; on success one question per result, `id` equal to its position |
| `TriviaApi.FormatResults` | services/triviaApi.js:32-56 | one formatted question per result, in order, each with its own answer shuffle |
| `TriviaApi.FormatResult` | services/triviaApi.js:32-55 | id is the position, question text decoded, category and difficulty copied through |
| `TriviaApi.DecodedAnswers` | services/triviaApi.js:35-39 | the correct answer first, then the incorrect ones, all decoded |
| `TriviaApi.ShuffledAnswers` | services/triviaApi.js:39-40 | the shuffled answers are a permutation of the decoded answers and contain the correct one |
| `TriviaApi.OptionListIsPrefix` | services/triviaApi.js:48-51 | options A–D are the first four shuffled answers, `''` past the end |
| `TriviaApi.AnswerLabelIsCorrect` | services/triviaApi.js:43-52 | the label names the first option equal to the decoded correct answer; `q[answer]` holds the decoded correct answer; it is undefined exactly when that answer lies past D, which at most three incorrect answers rule out |
| `TriviaApi.FourOptionsArePermutation` | services/triviaApi.js:39-51 | with three incorrect answers, options A–D are the four decoded answers in some order |
| `TriviaApi.TwoOptionsArePermutation` | services/triviaApi.js:39-51 | for a true/false question, A and B are the two answers in some order and C, D are `''` |
| `HtmlEntities.TableWellFormed` | services/triviaApi.js:69-82 | every table key has the shape `&[#\w]+;` and a one-character replacement |
| `HtmlEntities.DecodeWithNoLonger` | services/triviaApi.js:84 | replacing tokens by values no longer than themselves never lengthens the text |
| `HtmlEntities.DecodeHtml` | services/triviaApi.js:68-85 | the decoded text is never longer than the input |
| `HtmlEntities.TokenLength` | services/triviaApi.js:84 | a match of `&[#\w]+;` at the start has that shape |
| `HtmlEntities.EntityDecodes` | services/triviaApi.js:69-84 | a listed entity decodes to its table value, and decoding resumes right after it |
| `HtmlEntities.EachEntityDecodes` | services/triviaApi.js:69-84 | each of the twelve entities alone decodes to its value (`&ldquo;` to `"`, `&mdash;` to `-`) |
| `HtmlEntities.UnknownEntityVerbatim` | services/triviaApi.js:84 | a `&...;` token outside the table is left verbatim |
| `HtmlEntities.PlainPrefixUnchanged` | services/triviaApi.js:84 | text without '&' passes through unchanged, whatever follows it |
| `HtmlEntities.NoAmpersandUnchanged` | services/triviaApi.js:84 | a string with no '&' is returned unchanged |
| `HtmlEntities.SinglePass` | services/triviaApi.js:84 | `&amp;lt;` decodes to `&lt;`, not `<`, so decoding is not idempotent |
| `QuizClient.Remaining` | public/js/quiz.js:6-13 | remaining seconds are never negative, at most 60 once started, zero iff 60 s have elapsed, and otherwise the seconds left rounded up (60 minus the whole seconds elapsed) |
| `QuizClient.RemainingNonIncreasing` | public/js/quiz.js:12-13 | a later tick never shows more time |
| `QuizClient.TwoDigits` | public/js/quiz.js:15-16 | the zero-padded field has two digits below 100 and reads back as the number |
| `QuizClient.TimerLabelReadsBack` | public/js/quiz.js:15-17 | the label is "Time remaining: " then two minute digits, ':' and two second digits below 60, together denoting the remaining seconds |
| `QuizClient.TimerTick` | public/js/quiz.js:8-24 | nothing happens without a timer element or a truthy start time; otherwise the label is shown and the quiz auto-submitted exactly when 60 000 ms have elapsed |
| `QuizClient.BuildAnswers` | public/js/quiz.js:86-92 | one answer per loaded question, in order, with the question's id and the selected letter or `null` |
| `QuizClient.PayloadAnswersScore` | public/js/quiz.js:86-92 | for a client that keeps the payload list: answers built from a quiz's own payload always score without error, and question `i` counts iff the letter selected for it is its stored answer |
| `QuizClient.RequestWithoutIdNotFound` | public/js/quiz.js:94-99 | the request the page sends names no quiz, so the server answers "Quiz not found or expired" and changes nothing |
| `QuizClient.IntendedSubmitScores` | public/js/quiz.js:94-99 | with `{ quizId, answers }` sent, a stored quiz answered from its own payload is consumed, scored iff the record persists, and question `i` is correct iff its selected letter is the stored answer |
| `QuizClient.ResultsUrl` | public/js/quiz.js:105-109 | the results address starts with `/results?` |
| `QuizClient.ResultsUrlReadsBack` | public/js/quiz.js:105-109 | the results page reads back the score and total as its two parameters |
| `QuizClient.ClickSubmit` | public/js/quiz.js:82-121 | the request carries only the answers; the button is re-enabled iff the reply is a non-OK non-401, an unreadable body or a network failure; OK navigates to the results, 401 to `/login` |
| `QuizClient.ErrorReplyShowsMessage` | public/js/quiz.js:113-114 | an error reply's truthy message is shown as the alert |
| `Profile.RankFromScore` | public/js/profile.js:3-9 | the rank's level is the number of thresholds 50, 150, 300, 500 the score reaches; Master iff `>= 500`, Beginner iff `< 50` |
| `Profile.RankMonotone` | public/js/profile.js:3-9 | a higher total score never yields a lower rank |
| `Profile.PerformanceClassOf` | public/js/profile.js:11-16 | excellent `>= 90`, good `[70, 90)`, average `[50, 70)`, poor otherwise |
| `Profile.PerformanceClassMonotone` | public/js/profile.js:11-16 | a higher percentage never yields a lower class |
| `Profile.TotalScoreConcat` | public/js/profile.js:41 | the summed score of a concatenated history is the sum of the two sums |
| `Profile.MaxScore` | public/js/profile.js:43 | the maximum is at least every score and equal to one of them |
| `Profile.BestScore` | public/js/profile.js:43 | 0 for an empty history, otherwise the maximum score |
| `Profile.ProfileStats` | public/js/profile.js:40-48 | the game count is the history length, the total is the left-fold sum, the best is `BestScore`, and the displayed rank is the rank of that total |
| `Profile.BestAtMostTotal` | public/js/profile.js:41-43 | with non-negative scores the best score never exceeds the total |
| `Profile.RankNeverDrops` | public/js/profile.js:41-48 | more games with non-negative scores never lower the displayed rank |
| `Nav.Normalize` | public/js/common.js:33-36 | a missing or empty path and '/' give '/'; any other path loses exactly one trailing '/'; the result is never empty |
| `Nav.TrailingSlashIgnored` | public/js/common.js:35 | a path and the same path with one '/' appended normalize alike |
| `Nav.NotIdempotent` | public/js/common.js:35 | `/quiz//` normalizes to `/quiz/`, which normalizes again to `/quiz` |
| `Nav.MarkActive` | public/js/common.js:40-49 | only 'active' is ever added and no class removed; a link gets it iff it is not '#' or the logout link and its normalized href equals the normalized pathname |
| `Nav.MarkActiveIdempotent` | public/js/common.js:40-49 | marking twice is the same as marking once |
| `Nav.NoHrefMarkedOnRoot` | public/js/common.js:33-47 | a link without `href` normalizes to '/' and is marked exactly on the root page |
| `Text.ParseInt` | controllers/quizController.js:75 | `parseInt` skips leading white space, reads a sign, switches to base 16 after `0x`; a text whose first non-space is no digit or sign is NaN, and a negative result needs a '-' |
| `Text.ParseIntHex` | controllers/quizController.js:75 | `parseInt('0x' + x)` and `parseInt('0X' + x)` give the base-16 value of `x`'s leading hexadecimal digits, or NaN when there are none |
| `Text.ParseIntIntToString` | controllers/quizController.js:75 | `parseInt` reads any rendered integer, negative ones included, back exactly |
| `Text.ParseIntNatToString` | controllers/quizController.js:69-75 | `parseInt` reads a rendered non-negative integer back exactly |
| `Text.SplitJoin` | controllers/quizController.js:75 | `split` undoes `join` when no part contains the separator |
| `Text.PaddedNatReadsBack` | public/js/quiz.js:15-16 | a zero-padded number still reads back as itself |
| `Text.IndexOf` | services/triviaApi.js:43 | `indexOf` returns the first position holding the value, or none exactly when it is absent |
| `Text.Split` | controllers/quizController.js:75 | every piece of `split(c)` is free of `c` |

## Left out

- `TriviaApi.UrlRoundTrip`: the category and difficulty are inserted without URL encoding (services/triviaApi.js:17, 21). The read-back does no percent-decoding, no '+' to space and no '#' cut, and it holds only for texts without '&'. `TriviaApi.CategoryInjectsParam` shows what a '&' does.

- The provider's HTTP call (`axios.get`) and `getCategories` (services/triviaApi.js:25, 102-110) are not modelled. The call is an oracle from the URL to an outcome. A malformed body is folded into the request failure, since both throw and lead to the same fallback.
- Express routing, the error handler, response shaping and logging are not modelled. `console` output has no effect on state.
- The authentication gate is a precondition. `SubmitQuiz` takes a non-empty session user, and `CreateQuiz` takes the result of the user lookup.
- The User model, password hashing, the user history query and the leaderboard aggregation are left out. Their semantics live in the database or in files that are not part of this model.
- The local question bank file `data/questions.json` is not part of this model. It is a parameter.
- Floating-point display maths is left out: the average score, the average percentage and `toFixed`. `PerformanceClassOf` takes the percentage as a `real`.
- DOM rendering (`renderQuiz`, `loadProfile`'s markup) and the alert and redirect side effects are left out. The page state records only the disabled flag, the target location, the alert text and whether the timer was stopped.
- `loadQuiz` stores the whole `{quizId, questions}` reply as the question list (public/js/quiz.js:44). `renderQuiz` then throws on `forEach` (public/js/quiz.js:60) inside `loadQuiz`'s `try`, so lines 48-50 never run: `quizStartTime` stays `null` and `updateTimer` is never scheduled. `submitQuiz` then throws on `map` (public/js/quiz.js:86) before its `try`, before any request, leaving the button disabled. The DOM is not modelled, so the model takes the list of payload questions as a parameter. `TimerTick`, `BuildAnswers`, `ClickSubmit`, `PayloadAnswersScore` and `IntendedSubmitScores` therefore describe a page that keeps `data.questions`; the last two also assume it sends the quiz id, whose absence is logged under Findings.
- Concurrency is not modelled. Each request is one atomic step, which matches the synchronous `get` and `delete`.
- Request fields that are not integers are out of scope. That covers a string or `null` `amount`, string or fractional answer ids, and a missing `answers` array. Numbers are integers; NaN and fractions are not modelled.
- `Text.ParseInt`: the value is an unbounded integer. JavaScript rounds values past 2^53 to the nearest double, which no key made from `Date.now()` reaches.
- `QuizStore.KeyTimestampOfMakeKey`, `QuizStore.SweptKeepsRecent`, `QuizStore.RegisterKeepsNewIff`, `QuizStore.NewQuizSurvives` and `QuizController.CreatedQuizIsFound`: assume user ids contain no '_'. `QuizStore.KeyTimestampOfUnderscoredId` and `QuizStore.SweptReadsUserIdPiece` state what happens otherwise. `CreateQuiz` itself takes any user id.
- `QuizStore.MakeKeyInjective`: assumes user ids contain no '_'. The source does not check this, but its ids are hexadecimal object ids.
- The source keeps no per-user history of recently seen questions. `user.save()` writes nothing new, so no de-duplication is modelled.
- There is no dedicated malformed-submission error. An answer id outside the stored questions throws a TypeError before the delete, and the model reports it as `InvalidAnswerId` with the state unchanged.
- A second quiz by the same user in the same millisecond overwrites the first (`MakeKeyInjective`), as the code does.

## Findings

| source | as written | input that shows it | evidently intended | confidence | as-written member | corrected member |
|---|---|---|---|---|---|---|
| public/js/quiz.js:94-99 | the submit request body is `JSON.stringify({ answers })`, without the `quizId` the quiz reply carried | every request the page sends: the server reads `quizId` as `undefined`, `activeQuizzes.get(undefined)` finds nothing, and the reply is 400 "Quiz not found or expired". As written, a request is sent only when loading failed before line 44, with `questions` still `[]`, so the body is `{"answers":[]}`; once line 44 keeps `data.questions`, every submission is rejected this way | the body `{ quizId, answers }`, with the id from the quiz reply | high; not executed | `QuizClient.RequestWithoutIdNotFound` | `QuizClient.IntendedSubmitScores` |

=== FILE: html_entities.dfy ===
/**
 * `decodeHtml` from the trivia service: one left-to-right pass of
 * `html.replace(/&[#\w]+;/g, e => entities[e] || e)` over a fixed table of
 * twelve entities. The table folds curly quotes and dashes to ASCII and
 * decodes only `&#039;` numerically; it is not the full named-character
 * reference table of the HTML standard.
 */
module HtmlEntities {
  import Text

  /** The twelve entities and their replacements, exactly as listed in the source. */
  const Table: map<string, string> := map[
    "&quot;" := "\"",
    "&#039;" := "'",
    "&amp;" := "&",
    "&lt;" := "<",
    "&gt;" := ">",
    "&ldquo;" := "\"",
    "&rdquo;" := "\"",
    "&lsquo;" := "'",
    "&rsquo;" := "'",
    "&ndash;" := "-",
    "&mdash;" := "-",
    "&nbsp;" := " "
  ]

  /** `[#\w]`: '#' or an ASCII word character (JavaScript's `\w` without the `u` flag). */
  predicate IsNameChar(c: char) {
    c == '#' || c == '_' || 'a' <= c <= 'z' || 'A' <= c <= 'Z' || '0' <= c <= '9'
  }

  /** `s` has the shape `&[#\w]+;` in full. */
  predicate IsToken(s: string) {
    && |s| >= 3
    && s[0] == '&'
    && s[|s| - 1] == ';'
    && forall k :: 1 <= k < |s| - 1 ==> IsNameChar(s[k])
  }

  /** The length of the run of `[#\w]` characters starting at position `i`. */
  function NameRun(s: string, i: nat): (n: nat)
    requires i <= |s|
    ensures i + n <= |s|
    ensures forall k :: i <= k < i + n ==> IsNameChar(s[k])
    ensures i + n == |s| || !IsNameChar(s[i + n])
    decreases |s| - i
  {
    if i < |s| && IsNameChar(s[i]) then 1 + NameRun(s, i + 1) else 0
  }

  /**
   * The length of the match of `&[#\w]+;` starting at position 0, or 0 when
   * the regular expression does not match there.
   */
  function TokenLength(s: string): (n: nat)
    ensures n <= |s|
    ensures n > 0 ==> IsToken(s[..n])
  {
    if |s| == 0 || s[0] != '&' then 0
    else
      var run := NameRun(s, 1);
      if run > 0 && 1 + run < |s| && s[1 + run] == ';' then run + 2 else 0
  }

  /** `entities[e] || e` for a table whose values are all non-empty (truthy) strings. */
  function Replace(table: map<string, string>, e: string): string {
    if e in table then table[e] else e
  }

  /**
   * `html.replace(/&[#\w]+;/g, e => table[e] || e)`: a match is replaced
   * and skipped; otherwise one character is kept.
   */
  function DecodeWith(table: map<string, string>, s: string): string
    decreases |s|
  {
    if |s| == 0 then ""
    else
      var n := TokenLength(s);
      if n > 0 then Replace(table, s[..n]) + DecodeWith(table, s[n..])
      else [s[0]] + DecodeWith(table, s[1..])
  }

  /** No replacement is longer than the entity it replaces. */
  predicate NoLonger(table: map<string, string>) {
    forall e :: e in table ==> |table[e]| <= |e|
  }

  /** Decoding with a table of shorter replacements never lengthens the text. */
  lemma {:induction false} DecodeWithNoLonger(table: map<string, string>, s: string)
    requires NoLonger(table)
    ensures |DecodeWith(table, s)| <= |s|
    decreases |s|
  {
    if |s| > 0 {
      var n := TokenLength(s);
      if n > 0 {
        DecodeWithNoLonger(table, s[n..]);
      } else {
        DecodeWithNoLonger(table, s[1..]);
      }
    }
  }

  /** Every key of the table is itself a token, and its replacement is one character. */
  lemma TableWellFormed()
    ensures forall e :: e in Table ==> IsToken(e) && |Table[e]| == 1
  {
  }

  /** `decodeHtml(html)`: decoding through the twelve-entry table. */
  function DecodeHtml(s: string): (r: string)
    ensures |r| <= |s|
  {
    TableWellFormed();
    DecodeWithNoLonger(Table, s);
    DecodeWith(Table, s)
  }

  /** When `s` is a token, the regular expression matches all of `s` and nothing past it. */
  lemma {:induction false} TokenLengthOfToken(s: string, t: string)
    requires IsToken(s)
    ensures TokenLength(s + t) == |s|
  {
    NameRunOfName(s + t, 1, |s| - 2);
  }

  lemma {:induction false} NameRunOfName(s: string, i: nat, m: nat)
    requires i + m < |s|
    requires forall k :: i <= k < i + m ==> IsNameChar(s[k])
    requires !IsNameChar(s[i + m])
    ensures NameRun(s, i) == m
    decreases m
  {
    if m > 0 {
      NameRunOfName(s, i + 1, m - 1);
    }
  }

  /** A token is replaced as a whole, and decoding resumes right after it. */
  lemma TokenDecodes(table: map<string, string>, e: string, t: string)
    requires IsToken(e)
    ensures DecodeWith(table, e + t) == Replace(table, e) + DecodeWith(table, t)
  {
    TokenLengthOfToken(e, t);
    assert (e + t)[..|e|] == e;
    assert (e + t)[|e|..] == t;
  }

  /** A listed entity followed by anything decodes to its table value, then the rest. */
  lemma EntityDecodes(e: string, t: string)
    requires e in Table
    ensures DecodeHtml(e + t) == Table[e] + DecodeHtml(t)
  {
    TableWellFormed();
    TokenDecodes(Table, e, t);
  }

  /** A token outside the table is left verbatim, and decoding resumes after it. */
  lemma UnknownEntityVerbatim(e: string, t: string)
    requires IsToken(e) && e !in Table
    ensures DecodeHtml(e + t) == e + DecodeHtml(t)
  {
    TokenDecodes(Table, e, t);
  }

  /** A first character other than '&' is kept as it is. */
  lemma PlainStep(table: map<string, string>, s: string)
    requires |s| > 0 && s[0] != '&'
    ensures DecodeWith(table, s) == [s[0]] + DecodeWith(table, s[1..])
  {
    assert TokenLength(s) == 0;
  }

  /** Text without '&' passes through unchanged, whatever table is used. */
  lemma {:induction false} PlainPrefixWith(table: map<string, string>, s: string, t: string)
    requires '&' !in s
    ensures DecodeWith(table, s + t) == s + DecodeWith(table, t)
    decreases |s|
  {
    if |s| == 0 {
      assert s + t == t;
    } else {
      var st := s + t;
      var rest := DecodeWith(table, t);
      assert '&' !in s[1..] by {
        assert forall k :: 0 <= k < |s[1..]| ==> s[1..][k] == s[k + 1];
      }
      PlainPrefixWith(table, s[1..], t);
      Text.ConcatHeadTail(s, t);
      calc {
        DecodeWith(table, st);
        { PlainStep(table, st); }
        [s[0]] + DecodeWith(table, s[1..] + t);
        [s[0]] + (s[1..] + rest);
        { Text.ConcatAssoc([s[0]], s[1..], rest); }
        s + rest;
      }
    }
  }

  /** Text without '&' passes through unchanged, whatever follows it. */
  lemma PlainPrefixUnchanged(s: string, t: string)
    requires '&' !in s
    ensures DecodeHtml(s + t) == s + DecodeHtml(t)
  {
    PlainPrefixWith(Table, s, t);
  }

  /** A string with no '&' is returned unchanged. */
  lemma NoAmpersandUnchanged(s: string)
    requires '&' !in s
    ensures DecodeHtml(s) == s
  {
    PlainPrefixWith(Table, s, "");
    assert s + "" == s;
  }

  /** Each of the twelve entities, alone, decodes to its table value. */
  lemma EachEntityDecodes()
    ensures forall e :: e in Table ==> DecodeHtml(e) == Table[e]
  {
    forall e | e in Table
      ensures DecodeHtml(e) == Table[e]
    {
      EntityDecodes(e, "");
      assert e + "" == e;
    }
  }

  /** A listed entity followed by text without '&' decodes to its value followed by that text. */
  lemma EntityThenPlain(e: string, t: string)
    requires e in Table && '&' !in t
    ensures DecodeHtml(e + t) == Table[e] + t
  {
    EntityDecodes(e, t);
    NoAmpersandUnchanged(t);
  }

  lemma AmpEntry()
    ensures "&amp;" in Table && Table["&amp;"] == "&"
  {
  }

  lemma LtEntry()
    ensures "&lt;" in Table && Table["&lt;"] == "<"
  {
  }

  /** `&amp;lt;` decodes to `&lt;`. */
  lemma AmpLtDecodesOnce()
    ensures DecodeHtml("&amp;lt;") == "&lt;"
  {
    AmpEntry();
    EntityThenPlain("&amp;", "lt;");
    assert "&amp;" + "lt;" == "&amp;lt;";
    assert "&" + "lt;" == "&lt;";
  }

  /** `&lt;` decodes to `<`. */
  lemma LtDecodes()
    ensures DecodeHtml("&lt;") == "<"
  {
    LtEntry();
    EntityThenPlain("&lt;", "");
    assert "&lt;" + "" == "&lt;";
    assert "<" + "" == "<";
  }

  /**
   * One pass only: `&amp;lt;` decodes to `&lt;`, which a second pass would
   * turn into `<`, so decoding is not idempotent.
   */
  lemma SinglePass()
    ensures DecodeHtml("&amp;lt;") == "&lt;"
    ensures DecodeHtml(DecodeHtml("&amp;lt;")) == "<"
  {
    AmpLtDecodesOnce();
    LtDecodes();
  }
}

=== FILE: js.dfy ===
/**
 * The JavaScript values that reach the quiz logic from request bodies and
 * form fields, with the language rules the source applies to them.
 * Numbers are restricted to integers (no fractions, no NaN).
 */
module Js {
  import Text

  datatype JsValue = Undefined | Null | Bool(b: bool) | Num(n: int) | Str(s: string)

  /** JavaScript truthiness, as tested by `if (x)` and `x || y`. */
  predicate Truthy(v: JsValue) {
    match v
    case Undefined => false
    case Null => false
    case Bool(b) => b
    case Num(n) => n != 0
    case Str(s) => s != ""
  }

  /** `${v}`: how a template literal renders the value. */
  function ToText(v: JsValue): string {
    match v
    case Undefined => "undefined"
    case Null => "null"
    case Bool(b) => if b then "true" else "false"
    case Num(n) => Text.IntToString(n)
    case Str(s) => s
  }
}

=== FILE: nav.dfy ===
/**
 * Highlighting the current page in the navigation bar: the `normalize`
 * closure over paths and the rule that marks a link active.
 */
module Nav {
  import opened Wrappers

  /** A path ends with '/'. */
  predicate EndsWithSlash(p: string) {
    |p| > 0 && p[|p| - 1] == '/'
  }

  /**
   * `normalize(path)`: a missing or empty path is the root; the root stays
   * the root; any other path loses one trailing '/' (`replace(/\/$/, '')`).
   */
  function Normalize(path: Option<string>): (r: string)
    ensures r != ""
    ensures path.None? || path.value == "" || path.value == "/" ==> r == "/"
    ensures path.Some? && path.value != "/" && EndsWithSlash(path.value) ==> r + "/" == path.value
    ensures path.Some? && path.value != "" && !EndsWithSlash(path.value) ==> r == path.value
  {
    if path.None? || path.value == "" then "/"
    else if path.value == "/" then "/"
    else if EndsWithSlash(path.value) then path.value[..|path.value| - 1]
    else path.value
  }

  /** A path and the same path with one trailing '/' added normalize alike. */
  lemma TrailingSlashIgnored(p: string)
    requires p != "" && !EndsWithSlash(p)
    ensures Normalize(Some(p + "/")) == Normalize(Some(p)) == p
  {
    assert (p + "/")[..|p + "/"| - 1] == p;
  }

  /** Only one '/' is removed, so normalizing is not idempotent. */
  lemma NotIdempotent()
    ensures Normalize(Some("/quiz//")) == "/quiz/"
    ensures Normalize(Some(Normalize(Some("/quiz//")))) == "/quiz"
  {
    assert "/quiz//"[..6] == "/quiz/";
    assert "/quiz/"[..5] == "/quiz";
  }

  /** A navigation anchor: its `href` attribute (absent or not), its id and its classes. */
  datatype Link = Link(href: Option<string>, id: string, classes: set<string>)

  const LogoutId: string := "wayfinderLogout"

  /** The logout link and '#' links are never considered. */
  predicate Skipped(link: Link) {
    link.href == Some("#") || link.id == LogoutId
  }

  /** The class added to the link of the current page. */
  const Active: string := "active"

  /** `markActiveWayfinderLink` on the links of the bar and the current pathname. */
  function MarkActive(links: seq<Link>, pathname: Option<string>): (r: seq<Link>)
    ensures |r| == |links|
    ensures forall i :: 0 <= i < |links| ==> r[i].href == links[i].href && r[i].id == links[i].id
    ensures forall i :: 0 <= i < |links| ==> links[i].classes <= r[i].classes <= links[i].classes + {Active}
    ensures forall i :: 0 <= i < |links| && Active !in links[i].classes ==>
      (Active in r[i].classes <==> !Skipped(links[i]) && Normalize(links[i].href) == Normalize(pathname))
  {
    var current := Normalize(pathname);
    seq(|links|, i requires 0 <= i < |links| =>
      var link := links[i];
      if !Skipped(link) && Normalize(link.href) == current
      then link.(classes := link.classes + {Active})
      else link)
  }

  /** Running the marking twice changes nothing more. */
  lemma MarkActiveIdempotent(links: seq<Link>, pathname: Option<string>)
    ensures MarkActive(MarkActive(links, pathname), pathname) == MarkActive(links, pathname)
  {
    var once := MarkActive(links, pathname);
    var twice := MarkActive(once, pathname);
    forall i | 0 <= i < |links|
      ensures twice[i] == once[i]
    {
      if !Skipped(links[i]) && Normalize(links[i].href) == Normalize(pathname) {
        assert once[i].classes == links[i].classes + {Active};
        assert twice[i].classes == once[i].classes + {Active};
      }
    }
  }

  /**
   * A link without an `href` normalizes to the root, so it is marked
   * exactly on the root page.
   */
  lemma NoHrefMarkedOnRoot(link: Link, pathname: Option<string>)
    requires link.href.None? && link.id != LogoutId && Active !in link.classes
    ensures Active in MarkActive([link], pathname)[0].classes <==> Normalize(pathname) == "/"
  {
  }
}

=== FILE: profile.dfy ===
/**
 * The profile page's classifications and aggregates: the rank earned by a
 * total score, the class of a game's percentage, and the game count, total
 * score and best score over the fetched history.
 */
module Profile {

  /** The five ranks, lowest first. */
  datatype Rank = Beginner | Intermediate | Advanced | Expert | Master
  {
    /** The text `getRankFromScore` returns. */
    function Name(): string {
      match this
      case Beginner => "Beginner"
      case Intermediate => "Intermediate"
      case Advanced => "Advanced"
      case Expert => "Expert"
      case Master => "Master"
    }

    /** Position in the ladder, from 0 for Beginner to 4 for Master. */
    function Level(): nat {
      match this
      case Beginner => 0
      case Intermediate => 1
      case Advanced => 2
      case Expert => 3
      case Master => 4
    }
  }

  /** The minimum total score of Intermediate, Advanced, Expert and Master. */
  const RankThresholds: seq<int> := [50, 150, 300, 500]

  /** How many of the thresholds `x` reaches. */
  function Reached(x: int, thresholds: seq<int>): (n: nat)
    ensures n <= |thresholds|
  {
    if |thresholds| == 0 then 0
    else (if x >= thresholds[0] then 1 else 0) + Reached(x, thresholds[1..])
  }

  /** The rank thresholds reached, counted one by one. */
  lemma ReachedRankThresholds(x: int)
    ensures Reached(x, RankThresholds)
      == (if x >= 50 then 1 else 0) + (if x >= 150 then 1 else 0) + (if x >= 300 then 1 else 0) + (if x >= 500 then 1 else 0)
  {
    var t := RankThresholds;
    assert t[1..] == [150, 300, 500];
    assert [150, 300, 500][1..] == [300, 500];
    assert [300, 500][1..] == [500];
    assert [500][1..] == [];
    assert Reached(x, [500]) == if x >= 500 then 1 else 0;
    assert Reached(x, [300, 500]) == (if x >= 300 then 1 else 0) + Reached(x, [500]);
    assert Reached(x, [150, 300, 500]) == (if x >= 150 then 1 else 0) + Reached(x, [300, 500]);
  }

  /** `getRankFromScore`: the first threshold reached, from the top. */
  function RankFromScore(totalScore: int): (r: Rank)
    ensures r.Level() == Reached(totalScore, RankThresholds)
    ensures r == Master <==> totalScore >= 500
    ensures r == Beginner <==> totalScore < 50
  {
    ReachedRankThresholds(totalScore);
    if totalScore >= 500 then Master
    else if totalScore >= 300 then Expert
    else if totalScore >= 150 then Advanced
    else if totalScore >= 50 then Intermediate
    else Beginner
  }

  /** Reaching thresholds is monotone in the score. */
  lemma {:induction false} ReachedMonotone(x: int, y: int, thresholds: seq<int>)
    requires x <= y
    ensures Reached(x, thresholds) <= Reached(y, thresholds)
  {
    if |thresholds| > 0 {
      ReachedMonotone(x, y, thresholds[1..]);
    }
  }

  /** A higher total score never yields a lower rank. */
  lemma RankMonotone(x: int, y: int)
    requires x <= y
    ensures RankFromScore(x).Level() <= RankFromScore(y).Level()
  {
    ReachedMonotone(x, y, RankThresholds);
  }

  /** The four performance classes, lowest first. */
  datatype PerformanceClass = Poor | Average | Good | Excellent
  {
    /** The CSS class name `getPerformanceClass` returns. */
    function Name(): string {
      match this
      case Poor => "poor"
      case Average => "average"
      case Good => "good"
      case Excellent => "excellent"
    }

    function Level(): nat {
      match this
      case Poor => 0
      case Average => 1
      case Good => 2
      case Excellent => 3
    }
  }

  /** `getPerformanceClass(percent)`, on the percentage as a real number. */
  function PerformanceClassOf(percent: real): (c: PerformanceClass)
    ensures c == Excellent <==> percent >= 90.0
    ensures c == Good <==> 70.0 <= percent < 90.0
    ensures c == Average <==> 50.0 <= percent < 70.0
    ensures c == Poor <==> percent < 50.0
  {
    if percent >= 90.0 then Excellent
    else if percent >= 70.0 then Good
    else if percent >= 50.0 then Average
    else Poor
  }

  /** A higher percentage never yields a lower class. */
  lemma PerformanceClassMonotone(p: real, q: real)
    requires p <= q
    ensures PerformanceClassOf(p).Level() <= PerformanceClassOf(q).Level()
  {
  }

  /** One entry of the fetched history: the fields the aggregates read. */
  datatype Game = Game(score: int, total: int)

  /** `history.reduce((sum, game) => sum + game.score, 0)`, folding from the left. */
  function TotalScore(history: seq<Game>): int {
    if |history| == 0 then 0
    else TotalScore(history[..|history| - 1]) + history[|history| - 1].score
  }

  /** The total of a concatenation is the sum of the totals. */
  lemma {:induction false} TotalScoreConcat(a: seq<Game>, b: seq<Game>)
    ensures TotalScore(a + b) == TotalScore(a) + TotalScore(b)
    decreases |b|
  {
    if |b| > 0 {
      assert (a + b)[..|a + b| - 1] == a + b[..|b| - 1];
      TotalScoreConcat(a, b[..|b| - 1]);
    } else {
      assert a + b == a;
    }
  }

  /** With non-negative scores the total is at least every single score. */
  lemma {:induction false} TotalScoreBoundsEach(history: seq<Game>, i: nat)
    requires forall k :: 0 <= k < |history| ==> history[k].score >= 0
    requires i < |history|
    ensures history[i].score <= TotalScore(history)
  {
    assert history == history[..i] + [history[i]] + history[i + 1..];
    TotalScoreConcat(history[..i] + [history[i]], history[i + 1..]);
    TotalScoreConcat(history[..i], [history[i]]);
    assert [history[i]][..0] == [];
    TotalScoreNonNegative(history[..i]);
    TotalScoreNonNegative(history[i + 1..]);
  }

  lemma {:induction false} TotalScoreNonNegative(history: seq<Game>)
    requires forall k :: 0 <= k < |history| ==> history[k].score >= 0
    ensures TotalScore(history) >= 0
  {
    if |history| > 0 {
      TotalScoreNonNegative(history[..|history| - 1]);
    }
  }

  /** `Math.max(...history.map(g => g.score))` on a non-empty history. */
  function MaxScore(history: seq<Game>): (m: int)
    requires |history| > 0
    ensures forall k :: 0 <= k < |history| ==> history[k].score <= m
    ensures exists k :: 0 <= k < |history| && history[k].score == m
  {
    if |history| == 1 then history[0].score
    else
      var rest := MaxScore(history[1..]);
      assert forall k :: 1 <= k < |history| ==> history[k] == history[1..][k - 1];
      if history[0].score >= rest then history[0].score else rest
  }

  /** `bestScore`: 0 for an empty history, the highest score otherwise. */
  function BestScore(history: seq<Game>): (b: int)
    ensures |history| == 0 ==> b == 0
    ensures forall k :: 0 <= k < |history| ==> history[k].score <= b
    ensures |history| > 0 ==> exists k :: 0 <= k < |history| && history[k].score == b
  {
    if |history| > 0 then MaxScore(history) else 0
  }

  /** The stats the page shows: game count, total, best and the rank of the total. */
  datatype Stats = Stats(totalGames: nat, totalScore: int, bestScore: int, rank: Rank)

  function ProfileStats(history: seq<Game>): (s: Stats)
    ensures s.totalGames == |history|
    ensures s.totalScore == TotalScore(history) && s.bestScore == BestScore(history)
    ensures s.rank == RankFromScore(s.totalScore)
  {
    var total := TotalScore(history);
    Stats(|history|, total, BestScore(history), RankFromScore(total))
  }

  /** With non-negative scores the best game never exceeds the total. */
  lemma BestAtMostTotal(history: seq<Game>)
    requires forall k :: 0 <= k < |history| ==> history[k].score >= 0
    ensures ProfileStats(history).bestScore <= ProfileStats(history).totalScore
  {
    if |history| > 0 {
      var b := BestScore(history);
      var k :| 0 <= k < |history| && history[k].score == b;
      TotalScoreBoundsEach(history, k);
    }
  }

  /** Playing more games (with non-negative scores) never lowers the displayed rank. */
  lemma RankNeverDrops(history: seq<Game>, more: seq<Game>)
    requires forall k :: 0 <= k < |more| ==> more[k].score >= 0
    ensures ProfileStats(history).rank.Level() <= ProfileStats(history + more).rank.Level()
  {
    TotalScoreConcat(history, more);
    TotalScoreNonNegative(more);
    RankMonotone(TotalScore(history), TotalScore(history + more));
  }
}

=== FILE: query.dfy ===
/**
 * Query strings: `name=value` fields joined by '&', and how a server reads
 * each field back (split at the first '=').
 */
module Query {
  import Text

  /** `name=value` */
  function Pair(name: string, value: string): string {
    name + "=" + value
  }

  /** A query parameter as a server reads it back. */
  datatype Param = Param(name: string, value: string)

  /** `name=value`, split at the first '='. */
  function ParseParam(field: string): Param {
    match Text.IndexOf(field, '=')
    case None => Param(field, "")
    case Some(i) => Param(field[..i], field[i + 1..])
  }

  /** Each field read as a parameter. */
  function ParseAll(fields: seq<string>): (ps: seq<Param>)
    ensures |ps| == |fields|
    ensures forall i :: 0 <= i < |fields| ==> ps[i] == ParseParam(fields[i])
  {
    seq(|fields|, i requires 0 <= i < |fields| => ParseParam(fields[i]))
  }

  /**
   * The parameters a server reads from an address: the text after the path
   * `prefix`, split at every '&', each field split at its first '='. No
   * percent-decoding, '+' to space or '#' fragment cut is applied.
   */
  function ParamsAfter(prefix: string, url: string): seq<Param>
    requires prefix <= url
  {
    ParseAll(Text.Split(url[|prefix|..], '&'))
  }

  /** A field built from a name without '=' reads back as that name and value. */
  lemma ParseJoinedParam(name: string, value: string)
    requires '=' !in name
    ensures ParseParam(Pair(name, value)) == Param(name, value)
  {
    Text.IndexOfJoined(name, '=', value);
    assert Pair(name, value)[..|name|] == name;
    assert Pair(name, value)[|name| + 1..] == value;
  }

  /** The `name=value` field of each parameter, in order. */
  function Fields(ps: seq<Param>): (fields: seq<string>)
    ensures |fields| == |ps|
    ensures forall i :: 0 <= i < |ps| ==> fields[i] == Pair(ps[i].name, ps[i].value)
  {
    seq(|ps|, i requires 0 <= i < |ps| => Pair(ps[i].name, ps[i].value))
  }

  /** Parameters whose names hold no '=' read back from their fields. */
  lemma ParseFields(ps: seq<Param>)
    requires forall i :: 0 <= i < |ps| ==> '=' !in ps[i].name
    ensures ParseAll(Fields(ps)) == ps
  {
    forall i | 0 <= i < |ps|
      ensures ParseAll(Fields(ps))[i] == ps[i]
    {
      ParseJoinedParam(ps[i].name, ps[i].value);
    }
  }

  /**
   * Parameters whose names hold no '&' or '=' and whose values hold no '&',
   * joined by '&' after a path, read back as themselves, in order.
   */
  lemma JoinedParamsReadBack(prefix: string, ps: seq<Param>)
    requires |ps| >= 1
    requires forall i :: 0 <= i < |ps| ==> '&' !in ps[i].name && '&' !in ps[i].value && '=' !in ps[i].name
    ensures ParamsAfter(prefix, prefix + Text.Join(Fields(ps), '&')) == ps
  {
    var fields := Fields(ps);
    Text.DropPrefix(prefix, Text.Join(fields, '&'));
    assert forall i :: 0 <= i < |fields| ==> '&' !in fields[i];
    Text.SplitJoin(fields, '&');
    ParseFields(ps);
  }

  /** Fields whose names and values avoid a character other than '=' avoid it too. */
  lemma PairsFreeOf(n1: string, v1: string, n2: string, v2: string, n3: string, v3: string, has2: bool, has3: bool, c: char)
    requires c != '='
    requires c !in n1 && c !in v1
    requires has2 ==> c !in n2 && c !in v2
    requires has3 ==> c !in n3 && c !in v3
    ensures var fields := [Pair(n1, v1)] + (if has2 then [Pair(n2, v2)] else []) + (if has3 then [Pair(n3, v3)] else []);
      forall i :: 0 <= i < |fields| ==> c !in fields[i]
  {
  }
}

=== FILE: quiz_client.dfy ===
/**
 * The browser side of a quiz: the one-minute countdown (remaining seconds,
 * the `MM:SS` label, the auto-submit trigger), the `answers` array built
 * from the selected radio buttons, and what the submit button and the page
 * do with each kind of reply.
 *
 * The DOM is reduced to what the logic reads: whether the timer element
 * exists, the start time, and the selected letter per question index.
 */
module QuizClient {
  import opened Wrappers
  import opened Js
  import Text
  import opened Query
  import opened QuizTypes
  import QuizController

  /** `QUIZ_TIME_LIMIT_SECONDS` */
  const TimeLimitSeconds: nat := 60

  // ---------------------------------------------------------------------
  // The timer
  // ---------------------------------------------------------------------

  /**
   * `Math.max(0, 60 - Math.floor((now - start) / 1000))`. Dafny's `/` by a
   * positive divisor rounds down, as `Math.floor` of the quotient does.
   */
  function Remaining(start: int, now: int): (r: nat)
    ensures now >= start ==> r <= TimeLimitSeconds
    ensures r == 0 <==> now - start >= TimeLimitSeconds * 1000
    ensures r > 0 ==> (TimeLimitSeconds - r) * 1000 <= now - start < (TimeLimitSeconds - r + 1) * 1000
  {
    var elapsed := (now - start) / 1000;
    if TimeLimitSeconds - elapsed > 0 then TimeLimitSeconds - elapsed else 0
  }

  /** Time never runs backwards on the display: a later tick shows no more seconds. */
  lemma RemainingNonIncreasing(start: int, now1: int, now2: int)
    requires now1 <= now2
    ensures Remaining(start, now2) <= Remaining(start, now1)
  {
  }

  /** `String(n).padStart(2, '0')` */
  function TwoDigits(n: nat): (s: string)
    ensures n < 100 ==> |s| == 2
    ensures Text.AllDigits(s) && Text.DigitsValue(s) == n
  {
    Text.PaddedNatReadsBack(n, 2);
    Text.PadStart(Text.NatToString(n), 2, '0')
  }

  const LabelPrefix: string := "Time remaining: "

  /** `Time remaining: ${mins}:${secs}` */
  function TimerLabel(remaining: nat): string {
    LabelPrefix + TwoDigits(remaining / 60) + ":" + TwoDigits(remaining % 60)
  }

  /** The shape of `p + mm + ":" + ss`, for two two-character fields. */
  lemma ClockShape(p: string, mm: string, ss: string)
    requires |mm| == 2 && |ss| == 2
    ensures var s := p + mm + ":" + ss;
      && |s| == |p| + 5
      && s[..|p|] == p
      && s[|p|..|p| + 2] == mm
      && s[|p| + 2] == ':'
      && s[|p| + 3..] == ss
  {
  }

  /**
   * The label reads back as the remaining time: after the prefix, two
   * digits of minutes, ':', two digits of seconds below 60, together
   * denoting `remaining` seconds (for anything under 100 minutes, which
   * covers every value the timer shows once started).
   */
  lemma TimerLabelReadsBack(remaining: nat)
    requires remaining < 6000
    ensures var s := TimerLabel(remaining);
      var p := |LabelPrefix|;
      && |s| == p + 5
      && s[..p] == LabelPrefix
      && s[p + 2] == ':'
      && Text.AllDigits(s[p..p + 2]) && Text.AllDigits(s[p + 3..])
      && Text.DigitsValue(s[p + 3..]) < 60
      && Text.DigitsValue(s[p..p + 2]) * 60 + Text.DigitsValue(s[p + 3..]) == remaining
  {
    ClockShape(LabelPrefix, TwoDigits(remaining / 60), TwoDigits(remaining % 60));
  }

  /** What one call of `updateTimer` does. */
  datatype Tick = Idle | Show(text: string, autoSubmit: bool)

  /**
   * `updateTimer`: nothing without a timer element or a (truthy) start
   * time; otherwise the label is refreshed, and the quiz is submitted
   * exactly when no time remains.
   */
  function TimerTick(timerPresent: bool, start: Option<int>, now: int): (t: Tick)
    ensures t.Idle? <==> !timerPresent || start.None? || start.value == 0
    ensures t.Show? ==> (t.autoSubmit <==> now - start.value >= TimeLimitSeconds * 1000)
    ensures t.Show? ==> t.text == TimerLabel(Remaining(start.value, now))
  {
    if !timerPresent || start.None? || start.value == 0 then Idle
    else
      var remaining := Remaining(start.value, now);
      Show(TimerLabel(remaining), remaining <= 0)
  }

  // ---------------------------------------------------------------------
  // The answers
  // ---------------------------------------------------------------------

  /**
   * `questions.map((q, idx) => ({ id: q.id, chosenAnswer: selected ? selected.value : null }))`,
   * where `selected` maps a question's position to the letter checked for it.
   */
  function BuildAnswers(qs: seq<ClientQuestion>, selected: map<nat, string>): (answers: seq<Answer>)
    ensures |answers| == |qs|
    ensures forall i :: 0 <= i < |qs| ==> answers[i].id == qs[i].id
    ensures forall i :: 0 <= i < |qs| ==> answers[i].chosen == if i in selected then Str(selected[i]) else Null
  {
    seq(|qs|, i requires 0 <= i < |qs| =>
      Answer(qs[i].id, if i in selected then Str(selected[i]) else Null))
  }

  /**
   * Answers built from the quiz's own payload always name existing
   * questions, so scoring them never throws; question `i` counts exactly
   * when a letter was selected for it and that letter is the stored answer.
   *
   * This describes a client that keeps the payload's question list and
   * sends the quiz id with the answers. The page as written does neither:
   * `loadQuiz` keeps the whole reply object as the list (public/js/quiz.js:44)
   * and the request omits the id (see `RequestWithoutIdNotFound`).
   */
  lemma PayloadAnswersScore(qs: seq<Question>, selected: map<nat, string>)
    ensures var answers := BuildAnswers(QuizController.ClientPayload(qs), selected);
      var r := QuizController.ScoreAnswers(qs, answers);
      && r.Success?
      && forall i :: 0 <= i < |qs| ==>
        (r.value.detail[i].isCorrect <==> i in selected && qs[i].answer == Some(selected[i]))
  {
    var answers := BuildAnswers(QuizController.ClientPayload(qs), selected);
    assert forall i :: 0 <= i < |answers| ==> QuizController.ValidId(qs, answers[i].id);
  }

  // ---------------------------------------------------------------------
  // Submitting
  // ---------------------------------------------------------------------

  /** The JSON body of the submit request: `{ answers }` and nothing else. */
  datatype SubmitRequest = SubmitRequest(answers: seq<Answer>)

  /**
   * The body the server reads from the page's request: `JSON.stringify({ answers })`
   * has no `quizId` member, so `req.body.quizId` is `undefined`.
   */
  function ServerBody(req: SubmitRequest): QuizController.SubmitBody {
    QuizController.SubmitBody(Undefined, req.answers)
  }

  /**
   * Whatever the page sends, the server finds no quiz: the request never
   * names one, so the store and the game log stay as they are and the reply
   * is "Quiz not found or expired".
   */
  lemma RequestWithoutIdNotFound(
    s: QuizController.Server, user: string, qs: seq<ClientQuestion>, selected: map<nat, string>,
    timerRunning: bool, resp: Response, persistOk: bool)
    requires user != ""
    ensures var req := ClickSubmit(qs, selected, timerRunning, resp).0;
      QuizController.SubmitQuiz(s, user, ServerBody(req), persistOk) == (s, QuizController.NotFound(QuizController.NotFoundMessage))
  {
  }

  /** The request body the page evidently means to send: `{ quizId, answers }`. */
  function IntendedSubmitBody(quizId: string, qs: seq<ClientQuestion>, selected: map<nat, string>): QuizController.SubmitBody {
    QuizController.SubmitBody(Str(quizId), BuildAnswers(qs, selected))
  }

  /**
   * With the quiz id sent along, answering a stored quiz from its own
   * payload consumes the quiz, and the submission is scored exactly when
   * the game record persists: one detail per question, question `i` correct
   * exactly when its selected letter is the stored answer.
   */
  lemma IntendedSubmitScores(
    s: QuizController.Server, user: string, key: string, qs: seq<Question>,
    selected: map<nat, string>, persistOk: bool)
    requires user != ""
    requires key in s.store && s.store[key] == qs
    ensures var r := QuizController.SubmitQuiz(s, user, IntendedSubmitBody(key, QuizController.ClientPayload(qs), selected), persistOk);
      && r.0.store == s.store - {key}
      && (r.1.Scored? <==> persistOk)
      && (r.1.Scored? ==>
        && r.1.total == |qs|
        && |r.1.questions| == |qs|
        && forall i :: 0 <= i < |qs| ==>
          (r.1.questions[i].isCorrect <==> i in selected && qs[i].answer == Some(selected[i])))
  {
    PayloadAnswersScore(qs, selected);
  }

  /** The fields of the reply body the page reads. */
  datatype ReplyData = ReplyData(score: int, total: int, message: JsValue)

  /**
   * What `fetch` yields: a network failure, or a reply whose body is JSON
   * (`Some`) or not (`None`, and `res.json()` throws).
   */
  datatype Response = NetworkFailure | Reply(ok: bool, status: int, data: Option<ReplyData>)

  /** The page after the submit handler has run. */
  datatype Page = Page(buttonDisabled: bool, location: Option<string>, alert: Option<string>, timerStopped: bool)

  const ResultsPath: string := "/results?"

  /** `/results?${new URLSearchParams({ score, total })}` */
  function ResultsUrl(score: int, total: int): (url: string)
    ensures ResultsPath <= url
  {
    ResultsPath + (Pair("score", Text.IntToString(score)) + "&" + Pair("total", Text.IntToString(total)))
  }

  /** The results page reads back the score and total the server sent. */
  lemma ResultsUrlReadsBack(score: int, total: int)
    ensures ParamsAfter(ResultsPath, ResultsUrl(score, total))
      == [Param("score", Text.IntToString(score)), Param("total", Text.IntToString(total))]
  {
    var ps := [Param("score", Text.IntToString(score)), Param("total", Text.IntToString(total))];
    var fields := Fields(ps);
    assert fields == [Pair("score", Text.IntToString(score)), Pair("total", Text.IntToString(total))];
    assert fields[1..] == [fields[1]];
    assert Text.Join(fields, '&') == fields[0] + "&" + fields[1];
    Text.IntHasNo(score, '&');
    Text.IntHasNo(total, '&');
    JoinedParamsReadBack(ResultsPath, ps);
  }

  /**
   * `submitQuiz` on the page: the button is disabled first; the request
   * carries the answers only; then the reply decides. A successful reply
   * stops the timer and opens the results page; a 401 sends the user to
   * log in; any other reply, an unreadable body or a network failure
   * alerts and re-enables the button.
   */
  function ClickSubmit(qs: seq<ClientQuestion>, selected: map<nat, string>, timerRunning: bool, resp: Response): (r: (SubmitRequest, Page))
    ensures r.0 == SubmitRequest(BuildAnswers(qs, selected))
    ensures !r.1.buttonDisabled <==>
      resp.NetworkFailure? || resp.data.None? || (!resp.ok && resp.status != 401)
    ensures r.1.location.Some? <==> resp.Reply? && resp.data.Some? && (resp.ok || resp.status == 401)
    ensures r.1.location.Some? && resp.ok ==>
      r.1.location.value == ResultsUrl(resp.data.value.score, resp.data.value.total)
    ensures r.1.location.Some? && !resp.ok ==> r.1.location.value == "/login"
    ensures r.1.timerStopped <==> resp.Reply? && resp.data.Some? && resp.ok && timerRunning
    ensures r.1.alert.None? <==> r.1.location.Some? && resp.ok
  {
    var request := SubmitRequest(BuildAnswers(qs, selected));
    match resp
    case NetworkFailure => (request, Page(false, None, Some("Network error submitting quiz"), false))
    case Reply(ok, status, data) =>
      match data
      case None => (request, Page(false, None, Some("Network error submitting quiz"), false))
      case Some(d) =>
        if ok then (request, Page(true, Some(ResultsUrl(d.score, d.total)), None, timerRunning))
        else if status == 401 then (request, Page(true, Some("/login"), Some("You must be logged in."), false))
        else
          var message := if Truthy(d.message) then ToText(d.message) else "Error submitting quiz";
          (request, Page(false, None, Some(message), false))
  }

  /** An error reply shows the server's message when it has one. */
  lemma ErrorReplyShowsMessage(qs: seq<ClientQuestion>, selected: map<nat, string>, timerRunning: bool, status: int, d: ReplyData)
    requires status != 401 && Truthy(d.message)
    ensures ClickSubmit(qs, selected, timerRunning, Reply(false, status, Some(d))).1.alert == Some(ToText(d.message))
  {
  }
}

=== FILE: quiz_controller.dfy ===
/**
 * The quiz controller: question selection (trivia provider, or the local
 * bank when the provider throws), quiz creation with its store insertion
 * and sweep, the answer-free payload, and submission: lookup, scoring,
 * deletion, then persistence.
 *
 * The server state is the quiz store plus an append-only log standing for
 * the `GameSession` collection. Each request is one atomic step.
 */
module QuizController {
  import opened Wrappers
  import opened Js
  import Shuffle
  import TriviaApi
  import opened QuizTypes
  import opened QuizStore

  /** `const { amount = 10 } = req.body` */
  const DefaultAmount: int := 10

  const NotFoundMessage: string := "Quiz not found or expired"

  /** The quiz store and the persisted games. */
  datatype Server = Server(store: Store, games: seq<GameRecord>)

  /** The oracles standing for `Math.random`: the bank shuffle and each result's answer shuffle. */
  datatype Randomness = Randomness(bank: seq<nat>, answers: seq<seq<nat>>)

  // ---------------------------------------------------------------------
  // Question selection
  // ---------------------------------------------------------------------

  /** `indexes.slice(0, count)`: the end position JavaScript uses on a list of `n`. */
  function SliceEnd(n: nat, count: int): (e: nat)
    ensures e <= n
    ensures count >= 0 ==> e == if count < n then count else n
    ensures count < 0 ==> e == if n + count > 0 then n + count else 0
  {
    if count >= 0 then (if count < n then count else n)
    else if n + count > 0 then n + count else 0
  }

  /** The question built from bank entry `i`; it has no category or difficulty. */
  function FromBank(bank: seq<BankEntry>, i: nat): Question
    requires i < |bank|
  {
    var e := bank[i];
    Question(i, e.text, e.a, e.b, e.c, e.d, Some(e.answer), None, None)
  }

  /**
   * `getLocalQuestions(count)`: shuffle the bank's indexes, keep the first
   * `count`, copy each chosen entry. The ids are distinct bank positions.
   */
  function GetLocalQuestions(bank: seq<BankEntry>, count: int, choices: seq<nat>): (qs: seq<Question>)
    ensures |qs| == SliceEnd(|bank|, count)
    ensures count >= 0 ==> |qs| == if count < |bank| then count else |bank|
    ensures forall i :: 0 <= i < |qs| ==> qs[i].id < |bank| && qs[i] == FromBank(bank, qs[i].id)
    ensures forall i, j :: 0 <= i < j < |qs| ==> qs[i].id != qs[j].id
  {
    var indexes := Shuffle.Shuffled(Shuffle.Range(|bank|), choices);
    Shuffle.PermutationOfRange(indexes, |bank|);
    var chosen := indexes[..SliceEnd(|bank|, count)];
    seq(|chosen|, i requires 0 <= i < |chosen| => FromBank(bank, chosen[i]))
  }

  /** The body of the create request. */
  datatype CreateBody = CreateBody(amount: Option<int>, category: JsValue, difficulty: JsValue)

  /**
   * The questions of a new quiz: the provider's, or, when the provider call
   * throws for any reason, `getLocalQuestions(amount)`.
   */
  function SelectQuestions(
    body: CreateBody, fetch: string -> TriviaApi.HttpOutcome,
    bank: seq<BankEntry>, rnd: Randomness): (qs: seq<Question>)
    ensures var amount := body.amount.GetOr(DefaultAmount);
      var fetched := TriviaApi.FetchTriviaQuestions(amount, body.category, body.difficulty, fetch, rnd.answers);
      qs == if fetched.Success? then fetched.value else GetLocalQuestions(bank, amount, rnd.bank)
  {
    var amount := body.amount.GetOr(DefaultAmount);
    match TriviaApi.FetchTriviaQuestions(amount, body.category, body.difficulty, fetch, rnd.answers)
    case Success(qs) => qs
    case Failure(_) => GetLocalQuestions(bank, amount, rnd.bank)
  }

  /**
   * When the provider fails, the quiz holds `min(amount, bank size)`
   * distinct bank questions (for a non-negative amount), each a faithful
   * copy of its bank entry.
   */
  lemma FallbackSelection(
    body: CreateBody, fetch: string -> TriviaApi.HttpOutcome,
    bank: seq<BankEntry>, rnd: Randomness)
    requires var amount := body.amount.GetOr(DefaultAmount);
      TriviaApi.FetchTriviaQuestions(amount, body.category, body.difficulty, fetch, rnd.answers).Failure?
    ensures var qs := SelectQuestions(body, fetch, bank, rnd);
      var amount := body.amount.GetOr(DefaultAmount);
      && (amount >= 0 ==> |qs| == if amount < |bank| then amount else |bank|)
      && (forall i :: 0 <= i < |qs| ==> qs[i].id < |bank| && qs[i] == FromBank(bank, qs[i].id))
      && (forall i, j :: 0 <= i < j < |qs| ==> qs[i].id != qs[j].id)
  {
  }

  // ---------------------------------------------------------------------
  // The client payload
  // ---------------------------------------------------------------------

  /** `questions.map((q, index) => ({ id: index, question, options, category, difficulty }))` */
  function ClientPayload(qs: seq<Question>): (p: seq<ClientQuestion>)
    ensures |p| == |qs|
    ensures forall i :: 0 <= i < |p| ==> p[i].id == i
    ensures forall i :: 0 <= i < |p| ==>
      && p[i].text == qs[i].text
      && p[i].options == OptionSet(qs[i].a, qs[i].b, qs[i].c, qs[i].d)
      && p[i].category == qs[i].category
      && p[i].difficulty == qs[i].difficulty
  {
    seq(|qs|, i requires 0 <= i < |qs| =>
      ClientQuestion(i, qs[i].text, OptionSet(qs[i].a, qs[i].b, qs[i].c, qs[i].d), qs[i].category, qs[i].difficulty))
  }

  /** The same questions with other correct answers. */
  function WithAnswers(qs: seq<Question>, answers: seq<Option<string>>): (r: seq<Question>)
    requires |answers| == |qs|
    ensures |r| == |qs|
  {
    seq(|qs|, i requires 0 <= i < |qs| => qs[i].(answer := answers[i]))
  }

  /**
   * The payload reveals nothing about the answers: changing every stored
   * answer leaves it identical.
   */
  lemma PayloadHidesAnswers(qs: seq<Question>, answers: seq<Option<string>>)
    requires |answers| == |qs|
    ensures ClientPayload(WithAnswers(qs, answers)) == ClientPayload(qs)
  {
  }

  // ---------------------------------------------------------------------
  // Creating a quiz
  // ---------------------------------------------------------------------

  datatype CreateError = UserMissing | SaveFailed

  datatype CreateReply = Created(quizId: string, questions: seq<ClientQuestion>) | CreateFailed(error: CreateError)

  /**
   * `createQuiz`. `user` is the result of `User.findById` (`None` when no
   * user is found, and `user._id` then throws); `keyTime` and `sweepTime`
   * are the two `Date.now()` reads; `saveOk` is whether `user.save()`
   * succeeds. The quiz is stored and the sweep run before the save, so a
   * failed save still leaves them in place.
   */
  function CreateQuiz(
    s: Server, user: Option<string>, body: CreateBody,
    fetch: string -> TriviaApi.HttpOutcome, bank: seq<BankEntry>, rnd: Randomness,
    keyTime: nat, sweepTime: int, saveOk: bool): (r: (Server, CreateReply))
    ensures r.0.games == s.games
    ensures user.None? ==> r == (s, CreateFailed(UserMissing))
    ensures user.Some? ==> r.0.store == Register(s.store, user.value, keyTime, sweepTime, SelectQuestions(body, fetch, bank, rnd))
    ensures r.1.Created? <==> user.Some? && saveOk
    ensures r.1.Created? ==>
      && r.1.quizId == MakeKey(user.value, keyTime)
      && r.1.questions == ClientPayload(SelectQuestions(body, fetch, bank, rnd))
  {
    match user
    case None => (s, CreateFailed(UserMissing))
    case Some(userId) =>
      var questions := SelectQuestions(body, fetch, bank, rnd);
      var quizId := MakeKey(userId, keyTime);
      var store := Register(s.store, userId, keyTime, sweepTime, questions);
      if !saveOk then (Server(store, s.games), CreateFailed(SaveFailed))
      else (Server(store, s.games), Created(quizId, ClientPayload(questions)))
  }

  // ---------------------------------------------------------------------
  // Scoring
  // ---------------------------------------------------------------------

  /** `questions[ans.id]` is a question. */
  predicate ValidId(qs: seq<Question>, id: int) {
    0 <= id < |qs|
  }

  /** The detail record of one answer to an existing question. */
  function DetailFor(qs: seq<Question>, ans: Answer): (d: Detail)
    requires ValidId(qs, ans.id)
    ensures d.index == ans.id && d.chosen == ans.chosen
    ensures d.question == qs[ans.id].text && d.correct == qs[ans.id].answer
    ensures d.isCorrect <==> AnswerMatches(ans.chosen, qs[ans.id].answer)
  {
    var q := qs[ans.id];
    Detail(ans.id, q.text, ans.chosen, q.answer, AnswerMatches(ans.chosen, q.answer))
  }

  /** An answer counts when it names an existing question and matches its stored answer. */
  predicate Correct(qs: seq<Question>, ans: Answer) {
    ValidId(qs, ans.id) && AnswerMatches(ans.chosen, qs[ans.id].answer)
  }

  /** The number of correct answers in a list. */
  function CountCorrect(qs: seq<Question>, answers: seq<Answer>): (n: nat)
    ensures n <= |answers|
  {
    if |answers| == 0 then 0
    else (if Correct(qs, answers[0]) then 1 else 0) + CountCorrect(qs, answers[1..])
  }

  datatype Scoring = Scoring(score: nat, detail: seq<Detail>)

  /**
   * `answers.map(...)` with `score++`: one detail per answer, in order;
   * the first answer whose id names no question throws.
   */
  function ScoreAnswers(qs: seq<Question>, answers: seq<Answer>): (r: Result<Scoring, ()>)
    ensures r.Success? <==> forall i :: 0 <= i < |answers| ==> ValidId(qs, answers[i].id)
    ensures r.Success? ==> |r.value.detail| == |answers|
    ensures r.Success? ==> forall i :: 0 <= i < |answers| ==> r.value.detail[i] == DetailFor(qs, answers[i])
    ensures r.Success? ==> r.value.score == CountCorrect(qs, answers)
    decreases |answers|
  {
    if |answers| == 0 then Success(Scoring(0, []))
    else if !ValidId(qs, answers[0].id) then Failure(())
    else match ScoreAnswers(qs, answers[1..])
      case Failure(e) => Failure(e)
      case Success(rest) =>
        var d := DetailFor(qs, answers[0]);
        Success(Scoring((if d.isCorrect then 1 else 0) + rest.score, [d] + rest.detail))
  }

  /** A `null` choice never scores, whatever the stored answer. */
  lemma NullNeverCorrect(qs: seq<Question>, ans: Answer)
    requires ans.chosen == Null
    ensures !Correct(qs, ans)
  {
  }

  /** Counting splits over concatenation. */
  lemma {:induction false} CountCorrectAppend(qs: seq<Question>, a: seq<Answer>, b: seq<Answer>)
    ensures CountCorrect(qs, a + b) == CountCorrect(qs, a) + CountCorrect(qs, b)
  {
    if |a| > 0 {
      assert (a + b)[1..] == a[1..] + b;
      CountCorrectAppend(qs, a[1..], b);
    } else {
      assert a + b == b;
    }
  }

  /**
   * The score does not depend on the order of the answers (each answer is
   * keyed by its own id).
   */
  lemma {:induction false} CountCorrectPermutation(qs: seq<Question>, a: seq<Answer>, b: seq<Answer>)
    requires multiset(a) == multiset(b)
    ensures CountCorrect(qs, a) == CountCorrect(qs, b)
    decreases |a|
  {
    if |a| > 0 {
      var x := a[0];
      assert x in multiset(b);
      var k :| 0 <= k < |b| && b[k] == x;
      var rest := b[..k] + b[k + 1..];
      assert b == b[..k] + [x] + b[k + 1..];
      assert a == [x] + a[1..];
      assert multiset(a) == multiset{x} + multiset(a[1..]);
      assert multiset(b) == multiset(b[..k]) + multiset{x} + multiset(b[k + 1..]);
      assert multiset(rest) == multiset(b[..k]) + multiset(b[k + 1..]);
      assert multiset(a[1..]) == multiset(a) - multiset{x};
      assert multiset(rest) == multiset(b) - multiset{x};
      CountCorrectPermutation(qs, a[1..], rest);
      CountCorrectAppend(qs, b[..k] + [x], b[k + 1..]);
      CountCorrectAppend(qs, b[..k], [x]);
      CountCorrectAppend(qs, b[..k], b[k + 1..]);
    } else {
      assert |b| == |multiset(b)| == 0;
    }
  }

  // ---------------------------------------------------------------------
  // Submitting a quiz
  // ---------------------------------------------------------------------

  /** The body of the submit request: `{ quizId, answers }`. */
  datatype SubmitBody = SubmitBody(quizId: JsValue, answers: seq<Answer>)

  datatype SubmitError = InvalidAnswerId | PersistFailed

  datatype SubmitReply =
    | Scored(score: nat, total: nat, gameId: nat, questions: seq<Detail>)
    | NotFound(message: string)
    | SubmitFailed(error: SubmitError)

  /** `activeQuizzes.get(quizId)`: only a string id can name a stored quiz. */
  function Lookup(store: Store, quizId: JsValue): (r: Option<seq<Question>>)
    ensures r.Some? <==> quizId.Str? && quizId.s in store
    ensures r.Some? ==> r.value == store[quizId.s]
  {
    if quizId.Str? && quizId.s in store then Some(store[quizId.s]) else None
  }

  /**
   * `submitQuiz` for the logged-in user `user`. `persistOk` is whether
   * `GameSession.create` succeeds; the new game's id is its position in the
   * log.
   */
  function SubmitQuiz(s: Server, user: string, body: SubmitBody, persistOk: bool): (r: (Server, SubmitReply))
    requires user != ""
    ensures Lookup(s.store, body.quizId).None? ==> r == (s, NotFound(NotFoundMessage))
    ensures r.1 == SubmitFailed(InvalidAnswerId) ==> r.0 == s
    ensures Lookup(s.store, body.quizId).Some? ==>
      (r.1 == SubmitFailed(InvalidAnswerId) <==>
        exists i :: 0 <= i < |body.answers| && !ValidId(Lookup(s.store, body.quizId).value, body.answers[i].id))
    ensures r.1.Scored? <==> r.0.games != s.games
    ensures r.0.games == s.games || (|r.0.games| == |s.games| + 1 && r.0.games[..|s.games|] == s.games)
    ensures r.1.Scored? ==>
      && r.0.games[|s.games|] == GameRecord(user, r.1.score, r.1.total, r.1.questions)
      && r.1.gameId == |s.games|
      && r.1.total == |body.answers|
      && r.1.score == CountCorrect(Lookup(s.store, body.quizId).value, body.answers)
      && r.1.score <= r.1.total
      && |r.1.questions| == |body.answers|
    ensures var q := Lookup(s.store, body.quizId);
      q.Some? && ScoreAnswers(q.value, body.answers).Success? ==>
        && r.0.store == s.store - {body.quizId.s}
        && (r.1.Scored? <==> persistOk)
        && (!persistOk ==> r.1 == SubmitFailed(PersistFailed))
    ensures r.1.Scored? ==>
      r.1.questions == ScoreAnswers(Lookup(s.store, body.quizId).value, body.answers).value.detail
    ensures r.1.Scored? || (r.1.SubmitFailed? && r.1.error == PersistFailed) ==>
      && body.quizId.Str?
      && r.0.store == s.store - {body.quizId.s}
      && body.quizId.s in s.store
  {
    match Lookup(s.store, body.quizId)
    case None => (s, NotFound(NotFoundMessage))
    case Some(qs) =>
      match ScoreAnswers(qs, body.answers)
      case Failure(_) => (s, SubmitFailed(InvalidAnswerId))
      case Success(scoring) =>
        var store := s.store - {body.quizId.s};
        if !persistOk then (Server(store, s.games), SubmitFailed(PersistFailed))
        else
          var game := GameRecord(user, scoring.score, |body.answers|, scoring.detail);
          (Server(store, s.games + [game]), Scored(scoring.score, |body.answers|, |s.games|, scoring.detail))
  }

  /**
   * A submission with an answer id that names no question throws before
   * the delete: the quiz stays stored and nothing is persisted.
   */
  lemma InvalidIdKeepsQuiz(s: Server, user: string, body: SubmitBody, persistOk: bool, i: nat)
    requires user != ""
    requires Lookup(s.store, body.quizId).Some?
    requires i < |body.answers| && !ValidId(Lookup(s.store, body.quizId).value, body.answers[i].id)
    ensures SubmitQuiz(s, user, body, persistOk) == (s, SubmitFailed(InvalidAnswerId))
  {
  }

  /**
   * A quiz is consumed at most once: after any submission that got past
   * scoring (whether or not persisting succeeded), submitting the same id
   * again, with any answers, finds nothing and changes nothing.
   */
  lemma ConsumedOnce(
    s: Server, user: string, body: SubmitBody, persistOk: bool,
    again: seq<Answer>, persistAgain: bool)
    requires user != ""
    requires var r := SubmitQuiz(s, user, body, persistOk);
      r.1.Scored? || r.1 == SubmitFailed(PersistFailed)
    ensures var s1 := SubmitQuiz(s, user, body, persistOk).0;
      SubmitQuiz(s1, user, SubmitBody(body.quizId, again), persistAgain) == (s1, NotFound(NotFoundMessage))
  {
  }

  /**
   * A quiz just created (and not yet swept) can be submitted: the second
   * request finds it under the returned id.
   */
  lemma CreatedQuizIsFound(
    s: Server, userId: string, body: CreateBody,
    fetch: string -> TriviaApi.HttpOutcome, bank: seq<BankEntry>, rnd: Randomness,
    keyTime: nat, sweepTime: int, answers: seq<Answer>, persistOk: bool)
    requires userId != "" && '_' !in userId
    requires keyTime <= sweepTime <= keyTime + MaxAgeMillis
    ensures var (s1, reply) := CreateQuiz(s, Some(userId), body, fetch, bank, rnd, keyTime, sweepTime, true);
      && reply.Created?
      && !SubmitQuiz(s1, userId, SubmitBody(Str(reply.quizId), answers), persistOk).1.NotFound?
  {
    var (s1, reply) := CreateQuiz(s, Some(userId), body, fetch, bank, rnd, keyTime, sweepTime, true);
    NewQuizSurvives(s.store, userId, keyTime, sweepTime, SelectQuestions(body, fetch, bank, rnd));
    assert Lookup(s1.store, Str(reply.quizId)).Some?;
  }

  /**
   * Nothing stops an answer id from repeating: each copy is scored, so
   * one correct answer sent twice scores 2 of 2 on a one-question quiz.
   */
  lemma RepeatedAnswerCountsTwice(s: Server, user: string, key: string, q: Question, choice: string)
    requires user != ""
    requires q.answer == Some(choice)
    requires key in s.store && s.store[key] == [q]
    ensures var r := SubmitQuiz(s, user, SubmitBody(Str(key), [Answer(0, Str(choice)), Answer(0, Str(choice))]), true).1;
      r.Scored? && r.score == 2 && r.total == 2
  {
    var answers := [Answer(0, Str(choice)), Answer(0, Str(choice))];
    assert answers[1..] == [Answer(0, Str(choice))];
    assert answers[1..][1..] == [];
    assert CountCorrect([q], answers) == 2;
  }

  /**
   * An example: questions with answers A and C, answered A and B,
   * score 1 of 2 with only the first marked correct.
   */
  lemma OneOfTwoCorrect(s: Server, user: string, key: string, q0: Question, q1: Question, persistOk: bool)
    requires user != "" && persistOk
    requires q0.answer == Some("A") && q1.answer == Some("C")
    requires key in s.store && s.store[key] == [q0, q1]
    ensures var r := SubmitQuiz(s, user, SubmitBody(Str(key), [Answer(0, Str("A")), Answer(1, Str("B"))]), persistOk).1;
      && r.Scored? && r.score == 1 && r.total == 2
      && r.questions[0].isCorrect && !r.questions[1].isCorrect
  {
    var answers := [Answer(0, Str("A")), Answer(1, Str("B"))];
    assert answers[1..] == [Answer(1, Str("B"))];
    assert answers[1..][1..] == [];
    assert CountCorrect([q0, q1], answers) == 1;
  }
}

=== FILE: quiz_store.dfy ===
/**
 * The in-memory map of active quizzes: keys of the form
 * `<userId>_<epoch millis>`, insertion, and the one-hour expiry sweep that
 * runs on every insertion and reads each key's timestamp back with
 * `parseInt(key.split('_')[1])`.
 */
module QuizStore {
  import opened Wrappers
  import Text
  import opened QuizTypes

  /** Quizzes older than one hour are swept. */
  const MaxAgeMillis: nat := 3600000

  /** `activeQuizzes`: quiz id to the stored questions, answers included. */
  type Store = map<string, seq<Question>>

  /** `${user._id}_${Date.now()}` */
  function MakeKey(userId: string, now: nat): string {
    userId + "_" + Text.NatToString(now)
  }

  /** `parseInt(key.split('_')[1])`, with `None` for NaN (and for a missing second piece). */
  function KeyTimestamp(key: string): Option<int> {
    var parts := Text.Split(key, '_');
    if |parts| < 2 then None else Text.ParseInt(parts[1])
  }

  /** `timestamp < oneHourAgo`; a NaN timestamp compares false and is kept. */
  predicate Expired(key: string, now: int) {
    match KeyTimestamp(key)
    case None => false
    case Some(t) => t < now - MaxAgeMillis
  }

  /** The timestamp read back from a key is the one it was made with. */
  lemma KeyTimestampOfMakeKey(userId: string, now: nat)
    requires '_' !in userId
    ensures KeyTimestamp(MakeKey(userId, now)) == Some(now)
  {
    var digits := Text.NatToString(now);
    assert MakeKey(userId, now) == userId + ['_'] + digits;
    Text.SplitJoined(userId, '_', digits);
    Text.DigitsHaveNo(digits, '_');
    assert Text.IndexOf(digits, '_') == None;
    Text.ParseIntNatToString(now);
  }

  /**
   * A user id holding '_' moves the piece the sweep reads: it is the part
   * of the id after its first '_', whatever the creation time.
   */
  lemma KeyTimestampOfUnderscoredId(u: string, n: int, now: nat)
    requires '_' !in u
    ensures KeyTimestamp(MakeKey(u + "_" + Text.IntToString(n), now)) == Some(n)
  {
    var i := Text.IntToString(n);
    var digits := Text.NatToString(now);
    assert MakeKey(u + "_" + i, now) == u + ['_'] + (i + ['_'] + digits);
    Text.SplitJoined(u, '_', i + ['_'] + digits);
    Text.IntHasNo(n, '_');
    Text.SplitJoined(i, '_', digits);
    Text.ParseIntIntToString(n);
  }

  /**
   * Two keys coincide exactly when they were made for the same user in the
   * same millisecond: a second quiz by the same user in the same
   * millisecond lands on the first one's key.
   */
  lemma MakeKeyInjective(u1: string, t1: nat, u2: string, t2: nat)
    requires '_' !in u1 && '_' !in u2
    ensures MakeKey(u1, t1) == MakeKey(u2, t2) <==> u1 == u2 && t1 == t2
  {
    if MakeKey(u1, t1) == MakeKey(u2, t2) {
      KeyTimestampOfMakeKey(u1, t1);
      KeyTimestampOfMakeKey(u2, t2);
      var d1 := Text.NatToString(t1);
      var d2 := Text.NatToString(t2);
      Text.SplitJoined(u1, '_', d1);
      Text.SplitJoined(u2, '_', d2);
      assert MakeKey(u1, t1) == u1 + ['_'] + d1;
      assert MakeKey(u2, t2) == u2 + ['_'] + d2;
      assert Text.Split(MakeKey(u1, t1), '_')[0] == u1;
      assert Text.Split(MakeKey(u2, t2), '_')[0] == u2;
    }
  }

  /** The map after the sweep: what the `for ... of` loop with `delete` leaves. */
  function Swept(store: Store, now: int): (r: Store)
    ensures r.Keys <= store.Keys
    ensures forall k :: k in r ==> r[k] == store[k]
  {
    map k | k in store && !Expired(k, now) :: store[k]
  }

  /**
   * The sweep loop itself: visit every key once, deleting the expired ones.
   * Deleting the current entry during `Map` iteration does not disturb the
   * visit of the others.
   */
  method Sweep(store: Store, now: int) returns (r: Store)
    ensures r == Swept(store, now)
    ensures forall k :: k in store ==> (k in r <==> !Expired(k, now))
  {
    r := store;
    var pending := store.Keys;
    while pending != {}
      invariant pending <= store.Keys
      invariant r.Keys <= store.Keys
      invariant forall k :: k in r ==> r[k] == store[k]
      invariant forall k :: k in pending ==> k in r
      invariant forall k :: k in store && k !in pending ==> (k in r <==> !Expired(k, now))
      decreases pending
    {
      var k :| k in pending;
      if Expired(k, now) {
        r := r - {k};
      }
      pending := pending - {k};
    }
  }

  /**
   * What the sweep does to a quiz created at `t` by a user whose id has no
   * '_': it stays exactly when `t >= now - 1 hour`, with its questions
   * unchanged.
   */
  lemma SweptKeepsRecent(store: Store, now: int, userId: string, t: nat)
    requires '_' !in userId
    ensures var key := MakeKey(userId, t);
      key in Swept(store, now) <==> key in store && t >= now - MaxAgeMillis
  {
    KeyTimestampOfMakeKey(userId, t);
  }

  /**
   * For a user id `u_<n>`, the sweep keeps the quiz exactly while `n` is
   * within the hour, whenever the quiz was created.
   */
  lemma SweptReadsUserIdPiece(store: Store, now: int, u: string, n: int, t: nat)
    requires '_' !in u
    ensures var key := MakeKey(u + "_" + Text.IntToString(n), t);
      key in Swept(store, now) <==> key in store && n >= now - MaxAgeMillis
  {
    KeyTimestampOfUnderscoredId(u, n, t);
  }

  /**
   * `activeQuizzes.set(quizId, questions)` followed by the sweep: any
   * earlier quiz under the same key is replaced, and every other quiz stays
   * exactly when it has not expired, unchanged.
   */
  function Register(store: Store, userId: string, keyTime: nat, sweepTime: int, questions: seq<Question>): (r: Store)
    ensures var key := MakeKey(userId, keyTime);
      key in r ==> r[key] == questions
    ensures var key := MakeKey(userId, keyTime);
      key in r <==> !Expired(key, sweepTime)
    ensures var key := MakeKey(userId, keyTime);
      forall k :: k != key ==> (k in r <==> k in store && !Expired(k, sweepTime))
    ensures forall k :: k in r && k in store && k != MakeKey(userId, keyTime) ==> r[k] == store[k]
  {
    Swept(store[MakeKey(userId, keyTime) := questions], sweepTime)
  }

  /**
   * For a user id without '_', the new quiz survives its own sweep exactly
   * when the two clock reads are at most an hour apart.
   */
  lemma RegisterKeepsNewIff(store: Store, userId: string, keyTime: nat, sweepTime: int, questions: seq<Question>)
    requires '_' !in userId
    ensures MakeKey(userId, keyTime) in Register(store, userId, keyTime, sweepTime, questions)
      <==> keyTime >= sweepTime - MaxAgeMillis
  {
    KeyTimestampOfMakeKey(userId, keyTime);
  }

  /** Under a single clock read (or any two at most an hour apart) the new quiz survives its own sweep. */
  lemma NewQuizSurvives(store: Store, userId: string, keyTime: nat, sweepTime: int, questions: seq<Question>)
    requires '_' !in userId
    requires keyTime <= sweepTime <= keyTime + MaxAgeMillis
    ensures MakeKey(userId, keyTime) in Register(store, userId, keyTime, sweepTime, questions)
  {
    RegisterKeepsNewIff(store, userId, keyTime, sweepTime, questions);
  }
}

=== FILE: quiz_types.dfy ===
/**
 * The records that travel through the quiz: the stored question (answer
 * included), the answer-free question sent to the browser, a submitted
 * answer, the per-question result detail and the persisted game record
 * (the `GameSession` schema: user, score, total, questions).
 */
module QuizTypes {
  import opened Wrappers
  import opened Js

  /** The four option labels, in display order. */
  const Labels: seq<string> := ["A", "B", "C", "D"]

  /**
   * A question as the server stores it. `answer` is the label of the correct
   * option, or `None` when the source computed `undefined` for it.
   * `category` and `difficulty` are `None` for questions of the local bank.
   */
  datatype Question = Question(
    id: nat,
    text: string,
    a: string,
    b: string,
    c: string,
    d: string,
    answer: Option<string>,
    category: Option<string>,
    difficulty: Option<string>)
  {
    /** The option field a label names: `q[name]` for the labels A to D. */
    function Field(name: string): Option<string> {
      if name == "A" then Some(a)
      else if name == "B" then Some(b)
      else if name == "C" then Some(c)
      else if name == "D" then Some(d)
      else None
    }
  }

  /** One entry of the local question bank. */
  datatype BankEntry = BankEntry(text: string, a: string, b: string, c: string, d: string, answer: string)

  datatype OptionSet = OptionSet(a: string, b: string, c: string, d: string)

  /** A question as sent to the browser: it has no answer field at all. */
  datatype ClientQuestion = ClientQuestion(
    id: nat,
    text: string,
    options: OptionSet,
    category: Option<string>,
    difficulty: Option<string>)

  /** One element of the submitted `answers` array: `{ id, chosenAnswer }`. */
  datatype Answer = Answer(id: int, chosen: JsValue)

  /** One element of the result's `questions` array. */
  datatype Detail = Detail(index: int, question: string, chosen: JsValue, correct: Option<string>, isCorrect: bool)

  /** A persisted game: the `GameSession` document. */
  datatype GameRecord = GameRecord(user: string, score: nat, total: nat, questions: seq<Detail>)

  /**
   * `ans.chosenAnswer === q.answer`, with a missing stored answer read as
   * `undefined`: only a string equal to the label matches a label, and only
   * `undefined` matches a missing label.
   */
  predicate AnswerMatches(chosen: JsValue, answer: Option<string>) {
    match answer
    case Some(name) => chosen == Str(name)
    case None => chosen == Undefined
  }
}

=== FILE: shuffle.dfy ===
/**
 * The Fisher-Yates shuffle used twice by the source: in place over the
 * fallback bank's indexes, and on a copy of each question's answer list.
 *
 * `Math.random` becomes an oracle: the j drawn at iteration i is
 * `choices[i]` when that lies in [0, i], and 0 otherwise (including when
 * the oracle runs out), so every j in [0, i] can be drawn and no other.
 */
module Shuffle {

  /** The index `Math.floor(Math.random() * (i + 1))` drawn at iteration `i`. */
  function Pick(choices: seq<nat>, i: nat): (j: nat)
    ensures j <= i
  {
    if i < |choices| && choices[i] <= i then choices[i] else 0
  }

  /** `[a[i], a[j]] = [a[j], a[i]]` */
  function Swap<T>(a: seq<T>, i: nat, j: nat): (r: seq<T>)
    requires i < |a| && j < |a|
    ensures |r| == |a| && multiset(r) == multiset(a)
    ensures r[i] == a[j] && r[j] == a[i]
    ensures forall k :: 0 <= k < |a| && k != i && k != j ==> r[k] == a[k]
  {
    a[i := a[j]][j := a[i]]
  }

  /**
   * The array when the loop reaches index `i`: iterations `|a| - 1` down to
   * `i + 1` have been applied to `a`.
   */
  function Stage<T>(a: seq<T>, choices: seq<nat>, i: nat): (r: seq<T>)
    requires i < |a|
    ensures |r| == |a|
    ensures multiset(r) == multiset(a)
    decreases |a| - i
  {
    if i == |a| - 1 then a
    else Swap(Stage(a, choices, i + 1), i + 1, Pick(choices, i + 1))
  }

  /** The whole shuffle: `for (let i = a.length - 1; i > 0; i--)`. */
  function Shuffled<T>(a: seq<T>, choices: seq<nat>): (r: seq<T>)
    ensures |r| == |a|
    ensures multiset(r) == multiset(a)
  {
    if |a| == 0 then a else Stage(a, choices, 0)
  }

  /**
   * The loop itself, on a copy of the argument (`shuffleArray`); the
   * in-place `shuffle` leaves the same contents in its array.
   */
  method ShuffleArray<T>(a: seq<T>, choices: seq<nat>) returns (r: seq<T>)
    ensures r == Shuffled(a, choices)
    ensures multiset(r) == multiset(a)
  {
    r := a;
    if |r| == 0 {
      return;
    }
    var i := |r| - 1;
    while i > 0
      invariant 0 <= i < |a|
      invariant r == Stage(a, choices, i)
      decreases i
    {
      r := Swap(r, i, Pick(choices, i));
      i := i - 1;
    }
  }

  /** `[...Array(n).keys()]` */
  function Range(n: nat): (r: seq<nat>)
    ensures |r| == n
    ensures forall i :: 0 <= i < n ==> r[i] == i
  {
    seq(n, i requires 0 <= i => i as nat)
  }

  /** Each index occurs at most once in `Range(n)`, and only indexes below `n` occur. */
  lemma {:induction false} RangeMultiplicity(n: nat, v: nat)
    ensures multiset(Range(n))[v] == if v < n then 1 else 0
  {
    if n > 0 {
      assert Range(n) == Range(n - 1) + [n - 1];
      RangeMultiplicity(n - 1, v);
    }
  }

  /** A value at two positions of a sequence occurs at least twice in it. */
  lemma TwoPositionsTwoOccurrences<T>(s: seq<T>, i: nat, j: nat)
    requires i < j < |s| && s[i] == s[j]
    ensures multiset(s)[s[i]] >= 2
  {
    assert s == s[..i] + [s[i]] + s[i + 1..j] + [s[j]] + s[j + 1..];
  }

  /** A permutation of `Range(n)` lists every index below `n` exactly once. */
  lemma PermutationOfRange(s: seq<nat>, n: nat)
    requires multiset(s) == multiset(Range(n))
    ensures |s| == n
    ensures forall i :: 0 <= i < |s| ==> s[i] < n
    ensures forall i, j :: 0 <= i < j < |s| ==> s[i] != s[j]
  {
    assert |s| == |multiset(s)| == |multiset(Range(n))| == n;
    forall i | 0 <= i < |s|
      ensures s[i] < n
    {
      assert s[i] in multiset(s);
      RangeMultiplicity(n, s[i]);
    }
    forall i, j | 0 <= i < j < |s|
      ensures s[i] != s[j]
    {
      if s[i] == s[j] {
        TwoPositionsTwoOccurrences(s, i, j);
        RangeMultiplicity(n, s[i]);
      }
    }
  }
}

=== FILE: text.dfy ===
/**
 * The small pieces of JavaScript string behaviour the quiz relies on:
 * decimal rendering of integers (`String(n)`, template literals),
 * `parseInt`, `padStart`, `indexOf` and `split`.
 */
module Text {
  import opened Wrappers

  predicate IsDigit(c: char) {
    '0' <= c <= '9'
  }

  predicate AllDigits(s: string) {
    forall i :: 0 <= i < |s| ==> IsDigit(s[i])
  }

  function DigitChar(d: nat): (c: char)
    requires d < 10
    ensures IsDigit(c)
  {
    ('0' as int + d) as char
  }

  function DigitValue(c: char): (d: nat)
    requires IsDigit(c)
    ensures d < 10
  {
    c as int - '0' as int
  }

  /** Decimal rendering of a non-negative integer, without leading zeros. */
  function NatToString(n: nat): (s: string)
    ensures 1 <= |s| && AllDigits(s)
    ensures s[0] == '0' ==> n == 0
    decreases n
  {
    if n < 10 then [DigitChar(n)] else NatToString(n / 10) + [DigitChar(n % 10)]
  }

  /** Decimal rendering of an integer, with a leading '-' when negative. */
  function IntToString(n: int): (s: string)
    ensures 1 <= |s|
    ensures s[0] == '-' <==> n < 0
    ensures forall i :: 0 <= i < |s| ==> IsDigit(s[i]) || (i == 0 && s[i] == '-')
    ensures n >= 0 ==> s == NatToString(n)
  {
    if n < 0 then "-" + NatToString(-n) else NatToString(n)
  }

  /** The number a digit string denotes, most significant digit first. */
  function DigitsValue(s: string): nat
    requires AllDigits(s)
  {
    if |s| == 0 then 0 else DigitsValue(s[..|s| - 1]) * 10 + DigitValue(s[|s| - 1])
  }

  /** The longest prefix of `s` made of decimal digits. */
  function LeadingDigits(s: string): (p: string)
    ensures p <= s && AllDigits(p)
    ensures |p| == |s| || !IsDigit(s[|p|])
  {
    if |s| == 0 || !IsDigit(s[0]) then "" else [s[0]] + LeadingDigits(s[1..])
  }

  /**
   * The characters `parseInt` skips before the number: the white space and
   * line terminators of ECMAScript (tab, line feed, vertical tab, form
   * feed, carriage return, the space separators, the line and paragraph
   * separators and the byte order mark).
   */
  predicate IsJsSpace(c: char) {
    var n := c as int;
    n == 0x09 || n == 0x0A || n == 0x0B || n == 0x0C || n == 0x0D || n == 0x20 || n == 0xA0
    || n == 0x1680 || (0x2000 <= n <= 0x200A) || n == 0x2028 || n == 0x2029 || n == 0x202F
    || n == 0x205F || n == 0x3000 || n == 0xFEFF
  }

  /** `s` without its leading white space. */
  function TrimStart(s: string): (r: string)
    ensures |r| <= |s| && r == s[|s| - |r|..]
    ensures forall i :: 0 <= i < |s| - |r| ==> IsJsSpace(s[i])
    ensures |r| == 0 || !IsJsSpace(r[0])
  {
    if |s| > 0 && IsJsSpace(s[0]) then TrimStart(s[1..]) else s
  }

  predicate IsHexDigit(c: char) {
    IsDigit(c) || 'a' <= c <= 'f' || 'A' <= c <= 'F'
  }

  predicate AllHexDigits(s: string) {
    forall i :: 0 <= i < |s| ==> IsHexDigit(s[i])
  }

  function HexDigitValue(c: char): (d: nat)
    requires IsHexDigit(c)
    ensures d < 16
  {
    if IsDigit(c) then DigitValue(c)
    else if 'a' <= c <= 'f' then c as int - 'a' as int + 10
    else c as int - 'A' as int + 10
  }

  /** The number a hexadecimal digit string denotes. */
  function HexValue(s: string): nat
    requires AllHexDigits(s)
  {
    if |s| == 0 then 0 else HexValue(s[..|s| - 1]) * 16 + HexDigitValue(s[|s| - 1])
  }

  /** The longest prefix of `s` made of hexadecimal digits. */
  function LeadingHexDigits(s: string): (p: string)
    ensures p <= s && AllHexDigits(p)
    ensures |p| == |s| || !IsHexDigit(s[|p|])
  {
    if |s| == 0 || !IsHexDigit(s[0]) then "" else [s[0]] + LeadingHexDigits(s[1..])
  }

  /** A text starting with `0x` or `0X`, which `parseInt` reads in base 16. */
  predicate HasHexPrefix(s: string) {
    |s| >= 2 && s[0] == '0' && (s[1] == 'x' || s[1] == 'X')
  }

  /** The unsigned part of `parseInt`: base 16 after `0x`, base 10 otherwise. */
  function ParseMagnitude(u: string): (r: Option<nat>)
    ensures !HasHexPrefix(u) ==> (r.None? <==> |u| == 0 || !IsDigit(u[0]))
  {
    var p := if HasHexPrefix(u) then LeadingHexDigits(u[2..]) else LeadingDigits(u);
    if |p| == 0 then None
    else if HasHexPrefix(u) then Some(HexValue(p))
    else Some(DigitsValue(p))
  }

  /** The number at the start of an already trimmed text: an optional sign, then the magnitude. */
  function ParseSigned(t: string): (r: Option<int>)
    ensures |t| == 0 || (!IsDigit(t[0]) && t[0] != '-' && t[0] != '+') ==> r.None?
    ensures r.Some? && r.value < 0 ==> |t| > 0 && t[0] == '-'
  {
    if |t| > 0 && (t[0] == '-' || t[0] == '+') then
      match ParseMagnitude(t[1..])
      case None => None
      case Some(m) => if t[0] == '-' then Some(-(m as int)) else Some(m)
    else
      match ParseMagnitude(t)
      case None => None
      case Some(m) => Some(m)
  }

  /**
   * `parseInt(s)` with no radix: leading white space is skipped, one '+' or
   * '-' is read, a `0x`/`0X` prefix switches to base 16, and the longest
   * run of digits that follows is the magnitude. `None` is JavaScript's
   * NaN: no digit where the number should start. (A negative zero is 0.)
   */
  function ParseInt(s: string): (r: Option<int>)
    ensures var t := TrimStart(s);
      |t| == 0 || (!IsDigit(t[0]) && t[0] != '-' && t[0] != '+') ==> r.None?
    ensures r.Some? && r.value < 0 ==> '-' in s
  {
    var t := TrimStart(s);
    var r := ParseSigned(t);
    assert r.Some? && r.value < 0 ==> t[0] == s[|s| - |t|];
    r
  }

  /** `s.padStart(width, fill)`: left-pad with `fill` up to `width` characters. */
  function PadStart(s: string, width: nat, fill: char): (r: string)
    ensures |r| == if |s| >= width then |s| else width
    ensures r[|r| - |s|..] == s
    ensures forall i :: 0 <= i < |r| - |s| ==> r[i] == fill
  {
    if |s| >= width then s else seq(width - |s|, _ => fill) + s
  }

  /** `s.indexOf(x)`: the first position holding `x`, or `None` (JavaScript's -1). */
  function IndexOf<T(==)>(s: seq<T>, x: T): (r: Option<nat>)
    ensures r.Some? ==> r.value < |s| && s[r.value] == x
    ensures r.Some? ==> forall k :: 0 <= k < r.value ==> s[k] != x
    ensures r.None? <==> x !in s
  {
    if |s| == 0 then None
    else if s[0] == x then Some(0)
    else match IndexOf(s[1..], x)
      case None => None
      case Some(k) => Some(k + 1)
  }

  /** `s.split(c)` for a one-character separator. */
  function Split(s: string, c: char): (parts: seq<string>)
    ensures |parts| >= 1
    ensures forall i :: 0 <= i < |parts| ==> c !in parts[i]
    decreases |s|
  {
    match IndexOf(s, c)
    case None => [s]
    case Some(i) => [s[..i]] + Split(s[i + 1..], c)
  }

  /** The first separator of `a + [c] + b` is the one after `a` when `a` has none. */
  lemma IndexOfJoined(a: string, c: char, b: string)
    requires c !in a
    ensures IndexOf(a + [c] + b, c) == Some(|a|)
  {
    var s := a + [c] + b;
    assert s[|a|] == c;
    assert forall k :: 0 <= k < |a| ==> s[k] == a[k];
  }

  /** Splitting text that has the separator only where it was joined recovers the pieces. */
  lemma SplitJoined(a: string, c: char, b: string)
    requires c !in a
    ensures Split(a + [c] + b, c) == [a] + Split(b, c)
  {
    var s := a + [c] + b;
    IndexOfJoined(a, c, b);
    assert s[..|a|] == a;
    assert s[|a| + 1..] == b;
  }

  lemma ConcatAssoc<T>(a: seq<T>, b: seq<T>, c: seq<T>)
    ensures a + b + c == a + (b + c)
  {
  }

  /** The first element and the rest of a concatenation whose left part is non-empty. */
  lemma ConcatHeadTail<T>(s: seq<T>, t: seq<T>)
    requires |s| > 0
    ensures (s + t)[0] == s[0] && (s + t)[1..] == s[1..] + t
    ensures s == [s[0]] + s[1..]
  {
  }

  /** `parts.join(c)` for a non-empty list of parts. */
  function Join(parts: seq<string>, c: char): string
    requires |parts| >= 1
  {
    if |parts| == 1 then parts[0] else parts[0] + [c] + Join(parts[1..], c)
  }

  /** `split` undoes `join` when no part contains the separator. */
  lemma {:induction false} SplitJoin(parts: seq<string>, c: char)
    requires |parts| >= 1
    requires forall i :: 0 <= i < |parts| ==> c !in parts[i]
    ensures Split(Join(parts, c), c) == parts
  {
    if |parts| == 1 {
      assert IndexOf(parts[0], c) == None;
    } else {
      SplitJoin(parts[1..], c);
      SplitJoined(parts[0], c, Join(parts[1..], c));
      assert parts == [parts[0]] + parts[1..];
    }
  }

  /** Dropping a prefix's length from a concatenation leaves the suffix. */
  lemma DropPrefix<T>(p: seq<T>, x: seq<T>)
    ensures (p + x)[|p|..] == x
  {
  }

  /** A rendered integer contains only digits and a leading '-'. */
  lemma IntHasNo(n: int, c: char)
    requires !IsDigit(c) && c != '-'
    ensures c !in IntToString(n)
  {
  }

  /** Digit strings contain no separator punctuation. */
  lemma DigitsHaveNo(s: string, c: char)
    requires AllDigits(s) && !IsDigit(c)
    ensures c !in s
  {
  }

  /** Reading back a rendered number gives the number. */
  lemma {:induction false} DigitsValueOfNatToString(n: nat)
    ensures DigitsValue(NatToString(n)) == n
    decreases n
  {
    if n >= 10 {
      var s := NatToString(n);
      assert s[..|s| - 1] == NatToString(n / 10);
      DigitsValueOfNatToString(n / 10);
    }
  }

  /** The leading digits of a digit string followed by a non-digit are that string. */
  lemma {:induction false} LeadingDigitsOfDigitsThen(s: string, t: string)
    requires AllDigits(s)
    requires |t| == 0 || !IsDigit(t[0])
    ensures LeadingDigits(s + t) == s
  {
    if |s| > 0 {
      assert (s + t)[1..] == s[1..] + t;
      LeadingDigitsOfDigitsThen(s[1..], t);
    }
  }

  /** A text not starting with white space is its own trimmed form. */
  lemma TrimStartNoSpace(x: string)
    requires |x| > 0 && !IsJsSpace(x[0])
    ensures TrimStart(x) == x
  {
  }

  /** In base 10, the magnitude is the value of the leading digits. */
  lemma MagnitudeOfDigits(x: string)
    requires |x| > 0 && IsDigit(x[0]) && !HasHexPrefix(x)
    ensures ParseMagnitude(x) == Some(DigitsValue(LeadingDigits(x)))
  {
  }

  /** A text starting with a digit (and no base-16 prefix) is read as its leading digits. */
  lemma ParseIntUnsigned(x: string)
    requires |x| > 0 && IsDigit(x[0]) && !HasHexPrefix(x)
    ensures ParseInt(x) == Some(DigitsValue(LeadingDigits(x)))
  {
    TrimStartNoSpace(x);
    MagnitudeOfDigits(x);
  }

  /** A trimmed text starting with '-' is read as its negated magnitude. */
  lemma SignedMinus(t: string, m: nat)
    requires |t| > 0 && t[0] == '-' && ParseMagnitude(t[1..]) == Some(m)
    ensures ParseSigned(t) == Some(-(m as int))
  {
  }

  /** A text not starting with white space is read by the sign-and-magnitude stage directly. */
  lemma ParseIntOfTrimmed(s: string)
    requires |s| > 0 && !IsJsSpace(s[0])
    ensures ParseInt(s) == ParseSigned(s)
  {
    TrimStartNoSpace(s);
  }

  /** After a '-', a text is read as its negated magnitude. */
  lemma ParseIntNegative(x: string, m: nat)
    requires ParseMagnitude(x) == Some(m)
    ensures ParseInt(['-'] + x) == Some(-(m as int))
  {
    var s := ['-'] + x;
    assert s[0] == '-' && s[1..] == x;
    ParseIntOfTrimmed(s);
    SignedMinus(s, m);
  }

  /** A trimmed text starting with neither sign is read as its magnitude. */
  lemma SignedPlain(t: string)
    requires |t| > 0 && t[0] != '-' && t[0] != '+'
    ensures ParseSigned(t) == match ParseMagnitude(t) case None => None case Some(m) => Some(m as int)
  {
  }

  /** After `0x` or `0X`, the magnitude is the value of the leading hexadecimal digits, or NaN without one. */
  lemma MagnitudeOfHex(u: string)
    requires HasHexPrefix(u)
    ensures var p := LeadingHexDigits(u[2..]);
      ParseMagnitude(u) == if |p| == 0 then None else Some(HexValue(p))
  {
  }

  /**
   * `parseInt('0x' + x)` (or `'0X' + x`) reads `x` in base 16: the value of
   * its leading hexadecimal digits, or NaN when it starts with none.
   */
  lemma ParseIntHex(x: string, letter: char)
    requires letter == 'x' || letter == 'X'
    ensures var p := LeadingHexDigits(x);
      ParseInt(['0', letter] + x) == if |p| == 0 then None else Some(HexValue(p) as int)
  {
    var s := ['0', letter] + x;
    assert s[0] == '0' && s[1] == letter && s[2..] == x;
    ParseIntOfTrimmed(s);
    SignedPlain(s);
    MagnitudeOfHex(s);
  }

  /**
   * `parseInt` of a non-empty digit string followed by a non-digit reads
   * exactly that string (unless it is `0` followed by `x`, a base-16 prefix).
   */
  lemma ParseIntDigitsThen(s: string, t: string)
    requires 1 <= |s| && AllDigits(s)
    requires |t| == 0 || !IsDigit(t[0])
    requires !HasHexPrefix(s + t)
    ensures ParseInt(s + t) == Some(DigitsValue(s))
  {
    LeadingDigitsOfDigitsThen(s, t);
    ParseIntUnsigned(s + t);
  }

  /** A rendered non-negative integer has no base-16 prefix. */
  lemma NatToStringNotHex(n: nat)
    ensures !HasHexPrefix(NatToString(n))
  {
    var s := NatToString(n);
    if |s| >= 2 {
      assert IsDigit(s[1]);
    }
  }

  /** `parseInt(String(n)) === n` for every non-negative integer. */
  lemma ParseIntNatToString(n: nat)
    ensures ParseInt(NatToString(n)) == Some(n)
  {
    var s := NatToString(n);
    assert s + "" == s;
    NatToStringNotHex(n);
    ParseIntDigitsThen(s, "");
    DigitsValueOfNatToString(n);
  }

  /** `parseInt('-' + String(m)) === -m`. */
  lemma ParseIntMinusNat(m: nat)
    ensures ParseInt(['-'] + NatToString(m)) == Some(-(m as int))
  {
    var digits := NatToString(m);
    NatToStringNotHex(m);
    assert digits + "" == digits;
    LeadingDigitsOfDigitsThen(digits, "");
    MagnitudeOfDigits(digits);
    DigitsValueOfNatToString(m);
    ParseIntNegative(digits, m);
  }

  /** `parseInt(String(n)) === n` for every integer, negative ones included. */
  lemma ParseIntIntToString(n: int)
    ensures ParseInt(IntToString(n)) == Some(n)
  {
    if n < 0 {
      assert IntToString(n) == ['-'] + NatToString(-n);
      ParseIntMinusNat(-n);
    } else {
      ParseIntNatToString(n);
    }
  }

  /** Leading white space does not change what `parseInt` reads. */
  lemma ParseIntSkipsSpace(c: char, s: string)
    requires IsJsSpace(c)
    ensures ParseInt([c] + s) == ParseInt(s)
  {
    assert ([c] + s)[1..] == s;
  }

  /** Leading zeros do not change the value of a digit string. */
  lemma {:induction false} DigitsValueLeadingZeros(z: string, s: string)
    requires forall i :: 0 <= i < |z| ==> z[i] == '0'
    requires AllDigits(s)
    ensures AllDigits(z + s)
    ensures DigitsValue(z + s) == DigitsValue(s)
    decreases |s|
  {
    assert AllDigits(z + s) by {
      forall i | 0 <= i < |z + s|
        ensures IsDigit((z + s)[i])
      {
        if i < |z| { assert (z + s)[i] == z[i]; } else { assert (z + s)[i] == s[i - |z|]; }
      }
    }
    if |s| == 0 {
      assert z + s == z;
      ZerosValue(z);
    } else {
      assert (z + s)[..|z + s| - 1] == z + s[..|s| - 1];
      DigitsValueLeadingZeros(z, s[..|s| - 1]);
    }
  }

  /** A string of zeros denotes zero. */
  lemma {:induction false} ZerosValue(z: string)
    requires forall i :: 0 <= i < |z| ==> z[i] == '0'
    ensures AllDigits(z) && DigitsValue(z) == 0
  {
    if |z| > 0 {
      ZerosValue(z[..|z| - 1]);
    }
  }

  /** A number rendered and zero-padded on the left still reads back as itself. */
  lemma PaddedNatReadsBack(n: nat, width: nat)
    ensures AllDigits(PadStart(NatToString(n), width, '0'))
    ensures DigitsValue(PadStart(NatToString(n), width, '0')) == n
  {
    var s := NatToString(n);
    var p := PadStart(s, width, '0');
    var z := p[..|p| - |s|];
    assert p == z + s;
    DigitsValueLeadingZeros(z, s);
    DigitsValueOfNatToString(n);
  }
}

=== FILE: trivia_api.dfy ===
/**
 * The pure parts of the trivia service around its single HTTP request:
 * the query URL, the `response_code` check, and the formatting of each
 * result into a stored question (entity decoding, answer shuffle, labels).
 * The request itself is an oracle `fetch` from URL to outcome.
 */
module TriviaApi {
  import opened Wrappers
  import opened Js
  import Text
  import Shuffle
  import opened HtmlEntities
  import opened QuizTypes
  import opened Query

  const Endpoint: string := "https://opentdb.com/api.php?"

  /** One result of the provider's JSON body. */
  datatype RawResult = RawResult(
    category: string,
    difficulty: string,
    question: string,
    correct: string,
    incorrect: seq<string>)

  /** What the request yields: a network failure, or a parsed body. */
  datatype HttpOutcome = NetworkError | Response(responseCode: int, results: seq<RawResult>)

  /** Why `fetchTriviaQuestions` throws. */
  datatype FetchError = RequestFailed | ApiErrorCode(code: int)

  /**
   * The request URL: `amount` always, then `category` only when truthy,
   * then `difficulty` only when truthy.
   */
  function BuildUrl(amount: int, category: JsValue, difficulty: JsValue): (url: string)
    ensures Endpoint <= url
  {
    Endpoint + Pair("amount", Text.IntToString(amount))
    + (if Truthy(category) then "&" + Pair("category", ToText(category)) else "")
    + (if Truthy(difficulty) then "&" + Pair("difficulty", ToText(difficulty)) else "")
  }

  /** The parameters the request is meant to carry. */
  function IntendedParams(amount: int, category: JsValue, difficulty: JsValue): seq<Param> {
    [Param("amount", Text.IntToString(amount))]
    + (if Truthy(category) then [Param("category", ToText(category))] else [])
    + (if Truthy(difficulty) then [Param("difficulty", ToText(difficulty))] else [])
  }

  /** The `name=value` fields of the query string, in order. */
  function QueryFields(amount: int, category: JsValue, difficulty: JsValue): (fields: seq<string>)
    ensures |fields| >= 1
  {
    [Pair("amount", Text.IntToString(amount))]
    + (if Truthy(category) then [Pair("category", ToText(category))] else [])
    + (if Truthy(difficulty) then [Pair("difficulty", ToText(difficulty))] else [])
  }

  /** The shape of a query string: one field, then each optional field after a '&'. */
  lemma JoinShape(f1: string, f2: string, f3: string, hasC: bool, hasD: bool)
    ensures f1 + (if hasC then ['&'] + f2 else []) + (if hasD then ['&'] + f3 else [])
      == Text.Join([f1] + (if hasC then [f2] else []) + (if hasD then [f3] else []), '&')
  {
    var fields := [f1] + (if hasC then [f2] else []) + (if hasD then [f3] else []);
    if hasC && hasD {
      assert fields == [f1, f2, f3];
      assert fields[1..] == [f2, f3];
      assert fields[1..][1..] == [f3];
      assert Text.Join(fields[1..], '&') == f2 + ['&'] + f3;
      Text.ConcatAssoc(f1 + ['&'] + f2, ['&'], f3);
      Text.ConcatAssoc(f1, ['&'], f2 + ['&'] + f3);
      Text.ConcatAssoc(f1 + ['&'], f2, ['&'] + f3);
      Text.ConcatAssoc(f1 + ['&'], f2 + ['&'], f3);
    } else if hasC {
      assert fields == [f1, f2];
      assert fields[1..] == [f2];
    } else if hasD {
      assert fields == [f1, f3];
      assert fields[1..] == [f3];
    } else {
      assert fields == [f1];
    }
  }

  /** The URL is the endpoint followed by the fields joined with '&'. */
  lemma UrlIsJoinedFields(amount: int, category: JsValue, difficulty: JsValue)
    ensures BuildUrl(amount, category, difficulty) == Endpoint + Text.Join(QueryFields(amount, category, difficulty), '&')
  {
    var f1 := Pair("amount", Text.IntToString(amount));
    var f2 := Pair("category", ToText(category));
    var f3 := Pair("difficulty", ToText(difficulty));
    var p2 := if Truthy(category) then ['&'] + f2 else [];
    var p3 := if Truthy(difficulty) then ['&'] + f3 else [];
    JoinShape(f1, f2, f3, Truthy(category), Truthy(difficulty));
    Text.ConcatAssoc(Endpoint, f1, p2);
    Text.ConcatAssoc(Endpoint, f1 + p2, p3);
  }

  /** No field of the query string contains '&' when the category and difficulty texts do not. */
  lemma FieldsFreeOfAmpersand(amount: int, category: JsValue, difficulty: JsValue)
    requires Truthy(category) ==> '&' !in ToText(category)
    requires Truthy(difficulty) ==> '&' !in ToText(difficulty)
    ensures var fields := QueryFields(amount, category, difficulty);
      forall i :: 0 <= i < |fields| ==> '&' !in fields[i]
  {
    Text.IntHasNo(amount, '&');
    PairsFreeOf(
      "amount", Text.IntToString(amount),
      "category", ToText(category),
      "difficulty", ToText(difficulty),
      Truthy(category), Truthy(difficulty), '&');
  }

  /** Splitting the query string at '&' gives back the fields. */
  lemma UrlFields(amount: int, category: JsValue, difficulty: JsValue)
    requires Truthy(category) ==> '&' !in ToText(category)
    requires Truthy(difficulty) ==> '&' !in ToText(difficulty)
    ensures Text.Split(BuildUrl(amount, category, difficulty)[|Endpoint|..], '&') == QueryFields(amount, category, difficulty)
  {
    var fields := QueryFields(amount, category, difficulty);
    UrlIsJoinedFields(amount, category, difficulty);
    Text.DropPrefix(Endpoint, Text.Join(fields, '&'));
    FieldsFreeOfAmpersand(amount, category, difficulty);
    Text.SplitJoin(fields, '&');
  }

  /** A first field and two optional ones are the fields of the matching parameters. */
  lemma OptionalFields(n1: string, v1: string, n2: string, v2: string, n3: string, v3: string, has2: bool, has3: bool)
    ensures [Pair(n1, v1)] + (if has2 then [Pair(n2, v2)] else []) + (if has3 then [Pair(n3, v3)] else [])
      == Fields([Param(n1, v1)] + (if has2 then [Param(n2, v2)] else []) + (if has3 then [Param(n3, v3)] else []))
  {
  }

  /** Each field of the query string reads back as its intended parameter. */
  lemma FieldsReadBack(amount: int, category: JsValue, difficulty: JsValue)
    ensures ParseAll(QueryFields(amount, category, difficulty)) == IntendedParams(amount, category, difficulty)
  {
    OptionalFields(
      "amount", Text.IntToString(amount),
      "category", ToText(category),
      "difficulty", ToText(difficulty),
      Truthy(category), Truthy(difficulty));
    ParseFields(IntendedParams(amount, category, difficulty));
  }

  /**
   * Splitting the query string at every '&' and each field at its first '='
   * yields exactly the intended parameters, in order, provided the category
   * and difficulty texts carry no '&'. No percent-decoding is involved:
   * the texts are inserted unencoded.
   */
  lemma UrlRoundTrip(amount: int, category: JsValue, difficulty: JsValue)
    requires Truthy(category) ==> '&' !in ToText(category)
    requires Truthy(difficulty) ==> '&' !in ToText(difficulty)
    ensures ParamsAfter(Endpoint, BuildUrl(amount, category, difficulty)) == IntendedParams(amount, category, difficulty)
  {
    UrlFields(amount, category, difficulty);
    FieldsReadBack(amount, category, difficulty);
  }

  /** A category text holding `&` splits into two fields of the query string. */
  lemma InjectedUrl(amount: int, c: string, f3: string)
    ensures BuildUrl(amount, Str(c + "&" + f3), Undefined)
      == Endpoint + Text.Join([Pair("amount", Text.IntToString(amount)), Pair("category", c), f3], '&')
  {
    var f1 := Pair("amount", Text.IntToString(amount));
    var f2 := Pair("category", c);
    assert BuildUrl(amount, Str(c + "&" + f3), Undefined)
      == Endpoint + f1 + ("&" + Pair("category", c + "&" + f3)) + "";
    InjectedFields(Endpoint, f1, "category", c, f3);
    JoinShape(f1, f2, f3, true, true);
    assert [f1] + [f2] + [f3] == [f1, f2, f3];
  }

  /** Splitting a value at its '&' splits the query text into one field more. */
  lemma InjectedFields(prefix: string, f1: string, name: string, c: string, f3: string)
    ensures prefix + f1 + ("&" + Pair(name, c + "&" + f3)) + ""
      == prefix + (f1 + (['&'] + Pair(name, c)) + (['&'] + f3))
  {
    assert Pair(name, c + "&" + f3) == Pair(name, c) + ['&'] + f3 by {
      Text.ConcatAssoc(name + "=", c, "&" + f3);
      Text.ConcatAssoc(Pair(name, c), ['&'], f3);
    }
    Text.ConcatAssoc(f1 + ['&'], Pair(name, c) + ['&'], f3);
    Text.ConcatAssoc(f1 + ['&'], Pair(name, c), ['&']);
    Text.ConcatAssoc(f1, ['&'], Pair(name, c));
    Text.ConcatAssoc(prefix, f1, "&" + (Pair(name, c) + ['&'] + f3));
  }

  /**
   * The category is inserted unencoded, so a category text holding
   * `&name=value` adds a parameter of its own to the request.
   */
  lemma CategoryInjectsParam(amount: int, c: string, n: string, v: string)
    requires '&' !in c && '&' !in n && '&' !in v && '=' !in n
    ensures ParamsAfter(Endpoint, BuildUrl(amount, Str(c + "&" + Pair(n, v)), Undefined))
      == [Param("amount", Text.IntToString(amount)), Param("category", c), Param(n, v)]
  {
    var ps := [Param("amount", Text.IntToString(amount)), Param("category", c), Param(n, v)];
    InjectedUrl(amount, c, Pair(n, v));
    Text.IntHasNo(amount, '&');
    assert Fields(ps) == [Pair("amount", Text.IntToString(amount)), Pair("category", c), Pair(n, v)];
    JoinedParamsReadBack(Endpoint, ps);
  }

  /** `['A', 'B', 'C', 'D'][i]`: `undefined` past D. */
  function LabelAt(i: nat): Option<string> {
    if i < |Labels| then Some(Labels[i]) else None
  }

  /** `shuffledAnswers[k] || ''` */
  function OptionAt(answers: seq<string>, k: nat): string {
    if k < |answers| then answers[k] else ""
  }

  /** The four option fields of a question, in label order. */
  function OptionList(q: Question): seq<string> {
    [q.a, q.b, q.c, q.d]
  }

  /** `[correctAnswer, ...incorrectAnswers]`, both decoded. */
  function DecodedAnswers(raw: RawResult): (all: seq<string>)
    ensures |all| == 1 + |raw.incorrect|
    ensures all[0] == DecodeHtml(raw.correct)
    ensures forall i :: 0 <= i < |raw.incorrect| ==> all[i + 1] == DecodeHtml(raw.incorrect[i])
  {
    [DecodeHtml(raw.correct)]
    + seq(|raw.incorrect|, i requires 0 <= i < |raw.incorrect| => DecodeHtml(raw.incorrect[i]))
  }

  /** The answers in shuffled order: `shuffleArray([...allAnswers])`. */
  function ShuffledAnswers(raw: RawResult, choices: seq<nat>): (shuffled: seq<string>)
    ensures multiset(shuffled) == multiset(DecodedAnswers(raw))
    ensures DecodeHtml(raw.correct) in shuffled
  {
    var shuffled := Shuffle.Shuffled(DecodedAnswers(raw), choices);
    assert DecodeHtml(raw.correct) in multiset(DecodedAnswers(raw));
    shuffled
  }

  /** One formatted question, numbered `index`. */
  function FormatResult(raw: RawResult, index: nat, choices: seq<nat>): (q: Question)
    ensures q.id == index
    ensures q.text == DecodeHtml(raw.question)
    ensures q.category == Some(raw.category) && q.difficulty == Some(raw.difficulty)
  {
    var shuffled := ShuffledAnswers(raw, choices);
    Question(
      index,
      DecodeHtml(raw.question),
      OptionAt(shuffled, 0),
      OptionAt(shuffled, 1),
      OptionAt(shuffled, 2),
      OptionAt(shuffled, 3),
      LabelAt(Text.IndexOf(shuffled, DecodeHtml(raw.correct)).value),
      Some(raw.category),
      Some(raw.difficulty))
  }

  /** The four option fields are the first four shuffled answers, padded with ''. */
  lemma OptionListIsPrefix(raw: RawResult, index: nat, choices: seq<nat>)
    ensures var q := FormatResult(raw, index, choices);
      forall m :: 0 <= m < 4 ==> OptionList(q)[m] == OptionAt(ShuffledAnswers(raw, choices), m)
  {
  }

  /** The four labels are distinct, so each is found at its own position. */
  lemma LabelIndex(k: nat)
    requires k < |Labels|
    ensures Text.IndexOf(Labels, Labels[k]) == Some(k)
  {
    assert Labels[0] != Labels[1] && Labels[0] != Labels[2] && Labels[0] != Labels[3];
    assert Labels[1] != Labels[2] && Labels[1] != Labels[3] && Labels[2] != Labels[3];
  }

  /** `q[label]` for the label at position `k` is the option at position `k`. */
  lemma FieldOfLabel(q: Question, k: nat)
    requires k < |Labels|
    ensures q.Field(Labels[k]) == Some(OptionList(q)[k])
  {
  }

  /**
   * The label in `answer` names an option holding the decoded correct
   * answer, and no earlier option holds it; `answer` is missing exactly
   * when the correct answer was shuffled past D, which cannot happen with at
   * most three incorrect answers.
   */
  lemma AnswerLabelIsCorrect(raw: RawResult, index: nat, choices: seq<nat>)
    ensures var q := FormatResult(raw, index, choices);
      q.answer.Some? ==>
        && q.answer.value in Labels
        && var k := Text.IndexOf(Labels, q.answer.value).value;
        && OptionList(q)[k] == DecodeHtml(raw.correct)
        && forall m :: 0 <= m < k ==> OptionList(q)[m] != DecodeHtml(raw.correct)
    ensures var q := FormatResult(raw, index, choices);
      q.answer.None? <==> DecodeHtml(raw.correct) !in OptionList(q)
    ensures |raw.incorrect| <= 3 ==> FormatResult(raw, index, choices).answer.Some?
    ensures var q := FormatResult(raw, index, choices);
      q.answer.Some? ==> q.Field(q.answer.value) == Some(DecodeHtml(raw.correct))
  {
    var q := FormatResult(raw, index, choices);
    var shuffled := ShuffledAnswers(raw, choices);
    var correct := DecodeHtml(raw.correct);
    var k := Text.IndexOf(shuffled, correct).value;
    assert q.answer == LabelAt(k);
    OptionListIsPrefix(raw, index, choices);
    if k < 4 {
      LabelIndex(k);
      assert OptionList(q)[k] == correct;
      FieldOfLabel(q, k);
    } else {
      assert forall m :: 0 <= m < 4 ==> OptionList(q)[m] == shuffled[m] != correct;
    }
  }

  /** The oracle for the answer shuffle of result `i`. */
  function ChoicesFor(choices: seq<seq<nat>>, i: nat): seq<nat> {
    if i < |choices| then choices[i] else []
  }

  /** `response.data.results.map((q, index) => ...)` */
  function FormatResults(results: seq<RawResult>, choices: seq<seq<nat>>): (qs: seq<Question>)
    ensures |qs| == |results|
    ensures forall i :: 0 <= i < |qs| ==> qs[i] == FormatResult(results[i], i, ChoicesFor(choices, i))
  {
    seq(|results|, i requires 0 <= i < |results| => FormatResult(results[i], i, ChoicesFor(choices, i)))
  }

  /**
   * `fetchTriviaQuestions`: fails when the request fails or the body's
   * `response_code` is not 0; otherwise one question per result, numbered
   * by position.
   */
  function FetchTriviaQuestions(
    amount: int, category: JsValue, difficulty: JsValue,
    fetch: string -> HttpOutcome, choices: seq<seq<nat>>): (r: Result<seq<Question>, FetchError>)
    ensures var outcome := fetch(BuildUrl(amount, category, difficulty));
      r.Success? <==> outcome.Response? && outcome.responseCode == 0
    ensures var outcome := fetch(BuildUrl(amount, category, difficulty));
      outcome.Response? && outcome.responseCode != 0 ==> r == Failure(ApiErrorCode(outcome.responseCode))
    ensures r.Success? ==>
      var results := fetch(BuildUrl(amount, category, difficulty)).results;
      && |r.value| == |results|
      && forall i :: 0 <= i < |r.value| ==> r.value[i].id == i && r.value[i] == FormatResult(results[i], i, ChoicesFor(choices, i))
  {
    match fetch(BuildUrl(amount, category, difficulty))
    case NetworkError => Failure(RequestFailed)
    case Response(code, results) =>
      if code != 0 then Failure(ApiErrorCode(code)) else Success(FormatResults(results, choices))
  }

  /** With exactly three incorrect answers the four options are the four decoded answers in some order. */
  lemma FourOptionsArePermutation(raw: RawResult, index: nat, choices: seq<nat>)
    requires |raw.incorrect| == 3
    ensures multiset(OptionList(FormatResult(raw, index, choices))) == multiset(DecodedAnswers(raw))
  {
    OptionListIsPrefix(raw, index, choices);
    assert OptionList(FormatResult(raw, index, choices)) == ShuffledAnswers(raw, choices);
  }

  /**
   * With one incorrect answer (a true/false question) options A and B are
   * the two answers in some order, and C and D are empty.
   */
  lemma TwoOptionsArePermutation(raw: RawResult, index: nat, choices: seq<nat>)
    requires |raw.incorrect| == 1
    ensures var q := FormatResult(raw, index, choices);
      multiset([q.a, q.b]) == multiset(DecodedAnswers(raw)) && q.c == "" && q.d == ""
  {
    var q := FormatResult(raw, index, choices);
    OptionListIsPrefix(raw, index, choices);
    assert [q.a, q.b] == ShuffledAnswers(raw, choices);
  }
}

=== FILE: wrappers.dfy ===
/** Optional values and results shared by the whole model. */
module Wrappers {

  /** A value that may be missing (a JavaScript `null`/`undefined` or an absent field). */
  datatype Option<+T> = None | Some(value: T) {
    function GetOr(default: T): T {
      match this
      case Some(v) => v
      case None => default
    }
  }

  /** Either a computed value or the error the source would throw. */
  datatype Result<+R, +E> = Success(value: R) | Failure(error: E)
}
